=== FILE: README.md ===
# mylife backend core in Dafny

This project models the Python backend of *mylife*, a personal productivity
app. The backend has three services and the HTTP layer in front of them.

- **Pomodoro sessions** (`apps/backend/app/pomodoro.py`):
  - per-user settings with defaults;
  - focus and break sessions that are started, paused, resumed, finished,
    cancelled or renamed, with at most one active session at a time;
  - elapsed and remaining time derived from the stored row and the clock;
  - the tag list cleaned before it is stored;
  - the session list capped at 500;
  - the focus-time summary per day, week or month;
  - the wrapper that retries an operation once after a dropped database
    connection.
- **Background push notifications** (`apps/backend/app/push_notifications.py`):
  - a step schedule in 15-minute periods after a session's planned end;
  - the notification title and body for a step;
  - the dispatch loop over running sessions and active push subscriptions.
    It sends each due step once per session, deactivates subscriptions the
    push service reports as gone (HTTP 404/410), records the step it
    notified, and counts what it did.
- **Memo logs** (`apps/backend/app/memo_logs.py`): get, create, update and
  delete of memo rows owned by the demo user. Titles are trimmed and tags
  are cleaned the same way as session tags.
- **HTTP layer** (`apps/backend/app/main.py`):
  - the CORS origin list parsed from a comma-separated setting;
  - the database health payload;
  - the mapping of service failures to HTTP errors: 404 for a missing memo,
    400 for other value errors, 502 with a prefixed detail for anything
    else, and 503 on the health check.

How the model is built:

- Time is integer seconds and dates are day numbers since 1970-01-01. The
  current time is always a parameter.
- The session table is a class whose methods update its rows, tag map and
  next id in place. They keep one invariant: every row is well formed, ids
  are distinct, and at most one session is running or paused.
- Pure helpers are functions. Loops in the source are methods with loop
  invariants, each proved equal to a specification function:
  - the tag normaliser;
  - the summary bucket loop;
  - the dispatch loop.
- Sends to the push service are an outcome function of (session,
  subscription). Database writes made during a dispatch are returned as a
  log of effects.

One quirk of `push_notifications.py` is kept as written. The last notified
step is read with `or -1`, so a stored step `0` counts as "never notified".
A session in its first 15 minutes past the planned end therefore gets the
step-0 message again on every dispatch. `PushNotifications.StepZeroIsSentAgain`
states this.

## Model

| member | source | states |
|---|---|---|
| Retry.RunWithDisconnectRetry | apps/backend/app/pomodoro.py:194-204 | one or two calls; the second call (and one client reset) happens exactly when the first raised an error whose text contains "Server disconnected"; the result is that of the last call |
| Retry.RetriesDisconnectOnce | apps/backend/app/pomodoro.py:194-204 | for every error text containing "Server disconnected" and every value: a disconnect followed by success returns that value after two calls and one client reset |
| Retry.OtherErrorsPropagate | apps/backend/app/pomodoro.py:200-204 | for every error text not containing "Server disconnected": the error is re-raised after a single call, with no reset |
| Retry.AtMostOneRetry | apps/backend/app/pomodoro.py:194-204 | a second disconnect is raised, not retried again |
| Retry.DisconnectMessageIsRetried | apps/backend/app/pomodoro.py:194-204 | example: "Server disconnected while reading" followed by success is retried once |
| Retry.PermissionErrorPropagates | apps/backend/app/pomodoro.py:200-201 | example: "permission denied" propagates after one call |
| Text.TrimLeft | apps/backend/app/pomodoro.py:224 | the result is a suffix of the input that does not start with whitespace, and every dropped character is whitespace |
| Text.TrimRight | apps/backend/app/pomodoro.py:224 | the result is a prefix of the input that does not end with whitespace, and every dropped character is whitespace |
| Text.Strip | apps/backend/app/pomodoro.py:224 | Python `str.strip()`: the result is a slice `s[i..j]` of the input with only whitespace before `i` and after `j`, and it neither starts nor ends with whitespace |
| Text.StripWitness | apps/backend/app/pomodoro.py:224 | the characters dropped by the two trims are the whitespace at the two ends of the input |
| Text.StripKeepsCharacters | apps/backend/app/pomodoro.py:224 | stripping only removes characters |
| Text.StripKeeps | apps/backend/app/pomodoro.py:224 | a string without whitespace at either end is unchanged |
| Text.StripIdempotent | apps/backend/app/pomodoro.py:224 | stripping twice equals stripping once |
| Text.TrimLeftKeeps | apps/backend/app/pomodoro.py:224 | a string not starting with whitespace is unchanged by the left trim |
| Text.TrimRightKeeps | apps/backend/app/pomodoro.py:224 | a string not ending with whitespace is unchanged by the right trim |
| Text.ContainsExtendsLeft | apps/backend/app/pomodoro.py:200 | a substring stays a substring after a prefix is added |
| Text.ContainsInMiddle | apps/backend/app/pomodoro.py:200 | a string contains every string placed inside it |
| Text.Contains | apps/backend/app/pomodoro.py:200 | Python's `sub in s`; the empty string occurs in every string |
| Text.ContainsOccurs | apps/backend/app/pomodoro.py:200 | `sub in s` holds exactly when `sub` occurs at some position of `s` |
| Text.ShortNeverContains | apps/backend/app/pomodoro.py:200 | a string shorter than the pattern does not contain it |
| Text.Split | apps/backend/app/main.py:25 | Python `str.split(sep)` always yields at least one piece |
| Text.SplitPiecesAreFree | apps/backend/app/main.py:25 | no piece contains the separator |
| Text.JoinSplit | apps/backend/app/main.py:25 | joining the pieces with the separator gives back the input |
| Text.SplitWithoutSeparator | apps/backend/app/main.py:25 | a string without the separator splits into itself |
| Text.SplitStep | apps/backend/app/main.py:25 | how splitting one more leading character changes the pieces |
| Text.SplitAt | apps/backend/app/main.py:25 | splitting at a separator occurrence concatenates the pieces of both sides |
| Text.SplitAround | apps/backend/app/main.py:25 | split of `a + sep + b` is split of `a` followed by split of `b` |
| Text.DecimalString | apps/backend/app/push_notifications.py:142-146 | Python `str(n)`: non-empty, only digits, no leading zero |
| Text.DecimalRoundTrip | apps/backend/app/push_notifications.py:142-146 | reading the decimal digits back gives the number |
| Text.DecimalInjective | apps/backend/app/push_notifications.py:142-146 | different numbers print differently |
| Tags.Trimmed | apps/backend/app/pomodoro.py:223-224 | same length, each tag stripped |
| Tags.KeepFirst | apps/backend/app/pomodoro.py:225-228 | never longer than its input |
| Tags.NormalizedStep | apps/backend/app/pomodoro.py:223-228 | one more raw tag is skipped when blank or already seen, otherwise appended, as one loop turn does |
| Tags.KeepFirstSound | apps/backend/app/pomodoro.py:225-228 | kept items are non-empty input items |
| Tags.KeepFirstDistinct | apps/backend/app/pomodoro.py:225-228 | kept items are pairwise distinct |
| Tags.KeepFirstComplete | apps/backend/app/pomodoro.py:225-228 | every non-empty input item is kept |
| Tags.KeepFirstPrefix | apps/backend/app/pomodoro.py:225-228 | the result for a prefix of the input is a prefix of the result |
| Tags.KeepFirstFixesClean | apps/backend/app/pomodoro.py:225-228 | a list of distinct non-empty items is unchanged |
| Tags.KeepFirstOrder | apps/backend/app/pomodoro.py:225-228 | first occurrences keep their relative order |
| Tags.NormalizedSound | apps/backend/app/pomodoro.py:218-229 | each output tag is non-empty, already stripped, and the strip of some input tag |
| Tags.NormalizedDistinct | apps/backend/app/pomodoro.py:218-229 | output tags are unique |
| Tags.NormalizedComplete | apps/backend/app/pomodoro.py:218-229 | every input tag that is not blank appears stripped in the output |
| Tags.NormalizedPrefix | apps/backend/app/pomodoro.py:218-229 | normalising a prefix of the input gives a prefix of the output |
| Tags.FirstOccurrenceOrder | apps/backend/app/pomodoro.py:218-229 | input order of first occurrences is preserved |
| Tags.NormalizedIdempotent | apps/backend/app/pomodoro.py:218-229 | normalising a normalised list changes nothing |
| Tags.NormalizeTags | apps/backend/app/pomodoro.py:218-229 | the loop with its `seen` set computes exactly the normalised list |
| Tags.Normalized | apps/backend/app/memo_logs.py:98-109 | the normalised tag list of `_normalize_tags`, here and in its copy at pomodoro.py:218-229: never longer than the input; its meaning is given by NormalizedSound, NormalizedDistinct, NormalizedComplete and FirstOccurrenceOrder |
| Pomodoro.OrDefault | apps/backend/app/pomodoro.py:422-425 | `int(value or default)`: a null or zero column gives the default, any other value is kept |
| Pomodoro.SettingsFromRow | apps/backend/app/pomodoro.py:398-429 | no setting is zero; an all-null row gives 25/5/20/4 |
| Pomodoro.StoredSettings | apps/backend/app/pomodoro.py:432-465 | an update writes all four columns with the requested values |
| Pomodoro.SettingsAfterUpdate | apps/backend/app/pomodoro.py:432-465 | a null column of any of the four falls back to the requested value; for a valid payload the response equals the payload |
| Pomodoro.SettingsUpdateRoundTrip | apps/backend/app/pomodoro.py:432-465 | reading back the stored row of a valid update gives the payload, and all durations are positive |
| Pomodoro.DefaultPlannedSeconds | apps/backend/app/pomodoro.py:248-256 | the configured minutes of the session type times 60, at least a minute for positive settings |
| Pomodoro.DefaultDurations | apps/backend/app/pomodoro.py:248-256 | with default settings: 1500 s focus, 300 s short break, 1200 s long break |
| Pomodoro.PlannedSecondsFor | apps/backend/app/pomodoro.py:494 | an explicit non-zero duration wins, a missing one uses the settings; a valid request gets at least one second |
| Pomodoro.ElapsedSeconds | apps/backend/app/pomodoro.py:266-275 | elapsed time is never negative |
| Pomodoro.RemainingSeconds | apps/backend/app/pomodoro.py:278-283 | between zero and the plan; zero exactly when elapsed reaches the plan; otherwise remaining plus elapsed is the plan |
| Pomodoro.PlannedEndAt | apps/backend/app/pomodoro.py:259-263 | start plus the remaining time, never before the start |
| Pomodoro.SafeLimit | apps/backend/app/pomodoro.py:692 | the list limit clamped to 1..500 |
| Pomodoro.ElapsedMonotone | apps/backend/app/pomodoro.py:266-275 | elapsed time never decreases as the clock advances |
| Pomodoro.ElapsedFrozenUnlessRunning | apps/backend/app/pomodoro.py:269-271 | a session that is not running shows its stored seconds whatever the time |
| Pomodoro.ElapsedAccumulates | apps/backend/app/pomodoro.py:273-275 | a running session gains exactly the wall-clock time |
| Pomodoro.ElapsedExample | apps/backend/app/pomodoro.py:266-275 | 120 s stored plus 60 s running gives 180 s |
| Pomodoro.RemainingExample | apps/backend/app/pomodoro.py:278-283 | overrunning the plan reports 0 remaining |
| Pomodoro.RemainingIsTimeToPlannedEnd | apps/backend/app/pomodoro.py:259-283 | for a running session the remaining time is the time until its planned end |
| Pomodoro.StartedRow | apps/backend/app/pomodoro.py:494-511 | the inserted row: running, stripped title, zero seconds, never notified, planned end at start plus plan, full time remaining |
| Pomodoro.Pause | apps/backend/app/pomodoro.py:559-592 | only a running session pauses, otherwise "session is not running"; it banks the elapsed time capped at the plan and clears the planned end; remaining time is frozen afterwards |
| Pomodoro.Resume | apps/backend/app/pomodoro.py:595-630 | only a paused session resumes, otherwise "session is not paused"; it restarts the clock and sets the planned end to now plus the remaining time |
| Pomodoro.Close | apps/backend/app/pomodoro.py:645-682 | only an active session closes, otherwise "session is already finished"; it records the end time and the capped elapsed time and leaves no active state |
| Pomodoro.UpdateTitle | apps/backend/app/pomodoro.py:525-556 | only an active session is edited; a given non-empty title replaces the old one stripped, otherwise the old title is stripped |
| Pomodoro.FinalStatesAreTerminal | apps/backend/app/pomodoro.py:534-537 | completed and cancelled sessions refuse every transition |
| Pomodoro.PauseResumeShiftsPlannedEnd | apps/backend/app/pomodoro.py:559-630 | pausing at t1 and resuming at t2 moves the planned end by exactly t2 - t1 |
| Pomodoro.ToSessionOut | apps/backend/app/pomodoro.py:286-307 | reported seconds are the elapsed time capped at the plan, remaining seconds are the time left of the plan, and the two add up to the plan; start and creation instants are copied; stopped sessions report their stored seconds; cycle index defaults to 1 |
| PomodoroStore.IndexOf | apps/backend/app/pomodoro.py:363-377 | the position of the row with the id, or none exactly when no row has it |
| PomodoroStore.ActiveIndex | apps/backend/app/pomodoro.py:380-395 | the newest running or paused row, or none exactly when there is none |
| PomodoroStore.Step | apps/backend/app/pomodoro.py:525-682 | every transition keeps the id and the row invariant and never reactivates a finished session |
| PomodoroStore.ReplaceKeepsInvariant | apps/backend/app/pomodoro.py:525-682 | replacing a row by a valid transition keeps the table invariant |
| PomodoroStore.AppendKeepsInvariant | apps/backend/app/pomodoro.py:485-522 | inserting a fresh row when nothing is active keeps the table invariant |
| PomodoroStore.Listing | apps/backend/app/pomodoro.py:685-707 | up to the clamped limit, newest first, each as its API view |
| PomodoroStore.SessionTable.Current | apps/backend/app/pomodoro.py:468-482 | a session exactly when one is active; the result is the API view of an active stored row with its own tags, and in a valid table the view of the one active row |
| PomodoroStore.SessionTable.ListSessions | apps/backend/app/pomodoro.py:685-707 | the newest `SafeLimit(limit)` sessions, newest first |
| PomodoroStore.SessionTable.ListedSessionsAreDistinct | apps/backend/app/pomodoro.py:685-707 | listed ids are distinct and at most one listed session is active |
| PomodoroStore.SessionTable.constructor | apps/backend/app/pomodoro.py:485-522 | an empty table satisfies the invariant |
| PomodoroStore.SessionTable.StartSession | apps/backend/app/pomodoro.py:485-522 | with an active session: "active session already exists" and nothing changes; otherwise one row is appended with the next id and the normalised tags are linked |
| PomodoroStore.SessionTable.LinkTags | apps/backend/app/pomodoro.py:521 | the tag write of start and of update (pomodoro.py:555): the session's tag links become the normalised list; rows and the id counter stay |
| PomodoroStore.SessionTable.Apply | apps/backend/app/pomodoro.py:363-377 | unknown id: not found; otherwise the row is replaced by its transition, or nothing changes on a state error |
| PomodoroStore.SessionTable.PauseSession | apps/backend/app/pomodoro.py:559-592 | not found, or the pause transition applied in place, the invariant kept |
| PomodoroStore.SessionTable.ResumeSession | apps/backend/app/pomodoro.py:595-630 | not found, or the resume transition applied in place, the invariant kept |
| PomodoroStore.SessionTable.FinishSession | apps/backend/app/pomodoro.py:633-636 | not found, or closed as completed, the invariant kept |
| PomodoroStore.SessionTable.CancelSession | apps/backend/app/pomodoro.py:639-642 | not found, or closed as cancelled, the invariant kept |
| PomodoroStore.SessionTable.UpdateSession | apps/backend/app/pomodoro.py:525-556 | not found, or the title edit applied and the tags replaced by the normalised new list (none means empty) |
| PomodoroSummary.DayOf | apps/backend/app/pomodoro.py:723 | the UTC day containing the instant |
| PomodoroSummary.Weekday | apps/backend/app/pomodoro.py:725 | a weekday in 0..6, Monday 0 |
| PomodoroSummary.WeekStart | apps/backend/app/pomodoro.py:725-726 | the Monday on or before the day, less than a week earlier |
| PomodoroSummary.SameWeek | apps/backend/app/pomodoro.py:725-726 | every day of a week shares its week start |
| PomodoroSummary.DayOfMonth | apps/backend/app/pomodoro.py:727-728 | a day of month in 1..31 (calendar exactness shown by examples only) |
| PomodoroSummary.MonthStart | apps/backend/app/pomodoro.py:727-728 | at most 30 days before the day (first-of-month shown by examples only) |
| PomodoroSummary.PeriodStart | apps/backend/app/pomodoro.py:723-730 | never after the day: the day itself, the Monday of its week, or for months a day at most 30 days earlier |
| PomodoroSummary.WeekExamples | apps/backend/app/pomodoro.py:725-726 | 2026-03-02 is a Monday and starts the week of 2026-03-03 |
| PomodoroSummary.MonthExampleMarch | apps/backend/app/pomodoro.py:727-728 | 2026-03-03 is the 3rd and its month starts on 2026-03-01 |
| PomodoroSummary.MonthExampleLeapDay | apps/backend/app/pomodoro.py:727-728 | 2024-02-29 is the 29th of a month starting on 2024-02-01 |
| PomodoroSummary.MonthExampleYearEnd | apps/backend/app/pomodoro.py:727-728 | 2026-12-31 is the 31st of a month starting on 2026-12-01 |
| PomodoroSummary.KeyOf | apps/backend/app/pomodoro.py:722-730 | the period of a counted session starts no later than its end day |
| PomodoroSummary.KeysMeaning | apps/backend/app/pomodoro.py:713-745 | a period appears exactly when some completed focus session with an end ended in it |
| PomodoroSummary.PrefixStep | apps/backend/app/pomodoro.py:721-743 | one more session adds its period, one count and its seconds to that period only |
| PomodoroSummary.AppendStep | apps/backend/app/pomodoro.py:721-743 | the same for a session appended to a list |
| PomodoroSummary.CountPositiveIffKey | apps/backend/app/pomodoro.py:731-743 | a period has a positive count exactly when it has a row; other periods have no seconds |
| PomodoroSummary.UncountedChangesNothing | apps/backend/app/pomodoro.py:713-717 | breaks, unfinished and cancelled sessions change no count and no seconds |
| PomodoroSummary.HeadIsLargest | apps/backend/app/pomodoro.py:745 | the head of a descending list is its largest element |
| PomodoroSummary.Insert | apps/backend/app/pomodoro.py:745 | insertion keeps the list descending and adds exactly the new key |
| PomodoroSummary.SortDescending | apps/backend/app/pomodoro.py:745 | `sorted(..., reverse=True)` of distinct keys: descending, same elements, same length |
| PomodoroSummary.BumpKeepsRows | apps/backend/app/pomodoro.py:731-743 | one bucket update keeps every row equal to the count and seconds of the sessions seen |
| PomodoroSummary.BumpKeepsTallied | apps/backend/app/pomodoro.py:731-743 | one bucket update keeps the loop invariant |
| PomodoroSummary.Tally | apps/backend/app/pomodoro.py:721-743 | the bucket loop: one row per period holding that period's count and seconds |
| PomodoroSummary.RowsFollowKeys | apps/backend/app/pomodoro.py:745 | reading the bucket in descending key order gives the summary |
| PomodoroSummary.Summarize | apps/backend/app/pomodoro.py:713-745 | one row per period with a counted session, newest first, each with its count (at least one) and its focus seconds |
| PomodoroSummary.GetSummary | apps/backend/app/pomodoro.py:710-745 | the summary of the 500 newest sessions |
| PomodoroSummary.SameWeekSessionsShareARow | apps/backend/app/pomodoro.py:713-743 | two counted sessions of the same week and one break give one row with count 2 and the summed seconds |
| PomodoroSummary.WeekSummaryExample | apps/backend/app/pomodoro.py:713-743 | focus sessions on 2026-03-02 and 2026-03-03 and a break give the week row of 2026-03-02 with 2 sessions and 2700 s |
| PushNotifications.NotificationStep | apps/backend/app/push_notifications.py:124-130 | -1 exactly before the planned end, otherwise the number of whole 15-minute periods since it |
| PushNotifications.StepMonotone | apps/backend/app/push_notifications.py:124-130 | the step never decreases as time advances |
| PushNotifications.StepExamples | apps/backend/app/push_notifications.py:124-130 | -1 one second early, 0 at the end, 1 after 15 minutes, 2 after 31 minutes |
| PushNotifications.StepStartsWhenTimeIsUp | apps/backend/app/push_notifications.py:124-130 | a running session becomes due exactly when its remaining time reaches zero |
| PushNotifications.PhaseLabel | apps/backend/app/push_notifications.py:136 | "作業" exactly for focus sessions, "休憩" otherwise |
| PushNotifications.BuildNotificationPayload | apps/backend/app/push_notifications.py:133-146 | the "time reached" title and 00:00 body exactly for steps up to 0; otherwise the overrun title with step x 15 minutes |
| PushNotifications.ReachedBodyShowsZero | apps/backend/app/push_notifications.py:137-141 | the first message body mentions 00:00 |
| PushNotifications.OverrunBodyStatesMinutes | apps/backend/app/push_notifications.py:142-146 | the overrun body carries step x 15 as a decimal number |
| PushNotifications.OverrunBodiesDiffer | apps/backend/app/push_notifications.py:142-146 | different overrun steps give different bodies |
| PushNotifications.LastStep | apps/backend/app/push_notifications.py:273 | `int(value or -1)`: null and 0 read as -1, other values kept |
| PushNotifications.RunningView | apps/backend/app/push_notifications.py:210-220 | the dispatcher sees the session's id and planned end |
| PushNotifications.DueStep | apps/backend/app/push_notifications.py:264-275 | none without a planned end; otherwise the current step exactly when it is not negative and above the last notified step |
| PushNotifications.RunningRowDueWhenTimeIsUp | apps/backend/app/push_notifications.py:264-275 | a stored running row is due only once its remaining time is zero; with nothing recorded yet it is due exactly then |
| PushNotifications.StepZeroIsSentAgain | apps/backend/app/push_notifications.py:273-275 | a session whose stored step is 0 is due for step 0 again |
| PushNotifications.RecordedStepIsNotResent | apps/backend/app/push_notifications.py:273-275 | a stored non-zero step is not sent again until the step grows |
| PushNotifications.PayloadFor | apps/backend/app/push_notifications.py:277-287 | the message for the step, tagged `pomodoro-<id>-step-<step>` |
| PushNotifications.Gone | apps/backend/app/push_notifications.py:312-313 | only a refusal with status 404 or 410 means the subscription is gone; a failure without a status code never does |
| PushNotifications.Attempt | apps/backend/app/push_notifications.py:290-329 | a subscription deactivated earlier in the run is skipped; otherwise the push is logged and: delivered counts one sent; a 404/410 answer deactivates the subscription (logged right after the push, counted once); any other failure changes nothing else |
| PushNotifications.Broadcast | apps/backend/app/push_notifications.py:289-329 | the sends for one session only extend the log and the deactivated set, and add at most one count per subscription |
| PushNotifications.Visit | apps/backend/app/push_notifications.py:264-332 | a session that is not due changes nothing; a due one clears the per-session delivered flag and adds at most one count per subscription |
| PushNotifications.VisitAll | apps/backend/app/push_notifications.py:260-332 | the sessions in order from zero counters: the per-session flag is clear at the end and there are at most sessions x subscriptions counts |
| PushNotifications.Dispatch | apps/backend/app/push_notifications.py:242-339 | every running session is counted as checked; with no subscriptions or no sessions nothing is sent or written |
| PushNotifications.DispatchDueNotifications | apps/backend/app/push_notifications.py:242-339 | the nested loop computes exactly the dispatch result and its writes |
| PushNotifications.SendToAll | apps/backend/app/push_notifications.py:289-329 | the inner loop over subscriptions computes exactly the sends for one session |
| PushNotifications.AppendOne | apps/backend/app/push_notifications.py:309-316 | one more effect adds one delivered push or one deactivation to the counts |
| PushNotifications.PushKeepsConsistent | apps/backend/app/push_notifications.py:302-310 | a send to a live subscription keeps the counters in line with the log |
| PushNotifications.DeactivateKeepsConsistent | apps/backend/app/push_notifications.py:311-317 | deactivating a live subscription keeps the counters in line with the log |
| PushNotifications.AttemptConsistent | apps/backend/app/push_notifications.py:290-329 | one send attempt keeps the bookkeeping consistent |
| PushNotifications.BroadcastConsistent | apps/backend/app/push_notifications.py:289-329 | one session's sends keep the bookkeeping consistent |
| PushNotifications.VisitConsistent | apps/backend/app/push_notifications.py:264-332 | one session visit keeps the bookkeeping consistent |
| PushNotifications.VisitAllConsistent | apps/backend/app/push_notifications.py:260-332 | the whole loop keeps the bookkeeping consistent |
| PushNotifications.DispatchCounters | apps/backend/app/push_notifications.py:260-337 | the sent count is the number of delivered pushes and the deactivated count is the number of deactivations; no subscription is deactivated twice or used after deactivation |
| PushNotifications.QuietEffectKeepsRule | apps/backend/app/push_notifications.py:309-310 | logging a delivered or non-404/410 push, or a notified mark, keeps the deactivation rule |
| PushNotifications.GonePushKeepsRule | apps/backend/app/push_notifications.py:311-317 | logging a 404/410 push followed by its deactivation keeps the deactivation rule |
| PushNotifications.AttemptKeepsRule | apps/backend/app/push_notifications.py:290-329 | one send attempt keeps the deactivation rule |
| PushNotifications.BroadcastKeepsRule | apps/backend/app/push_notifications.py:289-329 | one session's sends keep the deactivation rule |
| PushNotifications.VisitKeepsRule | apps/backend/app/push_notifications.py:264-332 | one session visit keeps the deactivation rule |
| PushNotifications.VisitAllKeepsRule | apps/backend/app/push_notifications.py:260-332 | the whole loop keeps the deactivation rule |
| PushNotifications.DispatchDeactivatesExactlyGone | apps/backend/app/push_notifications.py:311-317 | in a dispatch's writes, every deactivation directly follows a push to that subscription answered 404 or 410, and every such push is directly followed by its deactivation |
| PushNotifications.BroadcastShape | apps/backend/app/push_notifications.py:289-329 | one session's sends only append pushes of its payload or deactivations; the session counts as delivered exactly when one of its pushes was delivered |
| PushNotifications.VisitShape | apps/backend/app/push_notifications.py:264-332 | a due session's pushes carry its step and payload; the step is marked notified (last) exactly when some push was delivered |
| PushNotifications.NoSubscriptionsNoEffects | apps/backend/app/push_notifications.py:289-293 | with no subscriptions the loop does nothing |
| PushNotifications.LatestStepOnlyExample | apps/backend/app/push_notifications.py:264-332 | 31 minutes late after step 1 was sent: only step 2 is pushed, then marked |
| PushNotifications.AlreadyNotifiedExample | apps/backend/app/push_notifications.py:273-275 | a step already recorded sends nothing |
| PushNotifications.NoPlannedEndExample | apps/backend/app/push_notifications.py:265-267 | a session without a planned end is counted but skipped |
| MemoLogs.WritePayload | apps/backend/app/memo_logs.py:268-276 | the written title is stripped; body, date and related session are kept |
| MemoLogs.RewriteIsStable | apps/backend/app/memo_logs.py:268-276 | writing back a written payload writes the same columns |
| MemoLogs.MemoToOut | apps/backend/app/memo_logs.py:148-161 | fields are copied; a missing title becomes ""; the given tags are reported |
| MemoLogs.GetMemoLog | apps/backend/app/memo_logs.py:241-260 | "memo log not found" exactly when the demo user has no such row; otherwise the row with its tags |
| MemoLogs.CreateMemoLog | apps/backend/app/memo_logs.py:263-287 | one new row under a fresh id owned by the demo user with the written columns and the normalised tags; other rows unchanged |
| MemoLogs.UpdateMemoLog | apps/backend/app/memo_logs.py:290-317 | not found exactly when there is no such row; otherwise only that row's columns and tags change |
| MemoLogs.DeleteMemoLog | apps/backend/app/memo_logs.py:320-328 | not found exactly when there is no such row; otherwise exactly that row is removed and the id counter and tag links stay as they were |
| MemoLogs.CreateThenGet | apps/backend/app/memo_logs.py:241-287 | a created memo reads back as returned, with stripped title and normalised tags |
| MemoLogs.UpdateThenGet | apps/backend/app/memo_logs.py:241-317 | an updated memo reads back as returned; other memos are unaffected |
| MemoLogs.DeleteThenGet | apps/backend/app/memo_logs.py:241-328 | a deleted memo is not found by get nor by a second delete; other memos are unaffected |
| MemoLogs.MissingTitleExample | apps/backend/app/memo_logs.py:148-161 | a row without a title is reported with an empty title |
| Api.NonBlankAppend | apps/backend/app/main.py:24-26 | the origin filter distributes over concatenation |
| Api.NonBlankClean | apps/backend/app/main.py:24-26 | what the filter keeps is non-blank and trimmed |
| Api.OriginsAreClean | apps/backend/app/main.py:24-26 | every allowed origin is non-empty, trimmed and free of commas |
| Api.AllowedOrigins | apps/backend/app/main.py:24-26 | at most one origin per comma-separated piece, each the non-empty strip of a piece |
| Api.OriginsOfJoinedSettings | apps/backend/app/main.py:24-26 | origins of two comma-joined settings are the origins of each, in order |
| Api.SingleOrigin | apps/backend/app/main.py:24-26 | a setting without commas gives its stripped value, or nothing if blank |
| Api.MemoErrorResponse | apps/backend/app/main.py:72-140 | 404 exactly for a missing memo on get/update/delete, 400 exactly for other value errors, 502 exactly otherwise with the handler's prefix |
| Api.ListAndCreateNeverNotFound | apps/backend/app/main.py:72-108 | list and create never answer 404; a not-found error there is a 400 |
| Api.HealthErrorResponse | apps/backend/app/main.py:64-68 | 503 exactly for value errors; anything else is 502 with "Supabase connection check failed: " |
| Api.HealthResponse | apps/backend/app/main.py:53-63 | status "ok", database "supabase", table and counts as reported, a missing total stays missing |
| Api.GetMemoEndpoint | apps/backend/app/main.py:83-94 | 404 with "memo log not found" exactly when the memo is missing; otherwise the memo |
| Api.UpdateMemoEndpoint | apps/backend/app/main.py:111-126 | 404 exactly when the memo is missing; otherwise the service's update |
| Api.DeleteMemoEndpoint | apps/backend/app/main.py:129-140 | 404 exactly when the memo is missing; otherwise the memo is gone |
| Api.DeleteTwiceIsNotFound | apps/backend/app/main.py:129-140 | deleting the same memo twice answers 404 the second time |

## Left out

- Supabase I/O is replaced by in-memory tables. Also left out:
  - the client cache;
  - the demo-user upsert;
  - creating a missing settings row;
  - the "failed to ..." `ValueError` paths, taken when an insert or update
    returns no rows;
  - the race where a row disappears between its read and its update.
- Tag persistence is represented by a map from id to the normalised list:
  - `_sync_session_tags`, `_sync_memo_tags`, `_load_tags_for_session_ids`
    and `_load_tags_for_memo_ids` are not modelled;
  - tag order after a round trip through the database is not modelled;
  - deleting a memo leaves its entry in the tag map. Whether the database
    drops the link rows depends on its foreign keys, and the schema is not
    part of this model. A deleted memo cannot be read, so the entry is
    never seen.
- `list_memo_logs` is not modelled. It orders by date in the database and
  adds nothing beyond `get_memo_log`.
- Sessions are listed in insertion order as their creation order. Timestamps
  that tie are not modelled.
- Datetime parsing, ISO formatting, time zones and the float truncation of
  `total_seconds()` are left out. Time is whole seconds and the clock is a
  parameter. UUIDs are natural numbers.
- Request validation (pydantic field bounds) is stated as preconditions:
  - `ValidStartRequest`;
  - `ValidSettingsUpdate`;
  - `ValidPayload`;
  - the action's close target.
- Push subscription register and unregister are left out. They are plain
  upserts.
- Also left out from push sending: VAPID settings, JSON encoding, the
  `webpush` call and logging. A send is an abstract outcome.
- The copy of the retry wrapper in `push_notifications.py` is not modelled
  separately; `pomodoro.py`'s copy stands for both. Retry wrapping is not
  composed with the table operations.
- The `/health` and `/ping` endpoints are left out. They return constant
  dictionaries that depend on configuration.
- Concurrency between requests is left out.
- PomodoroSummary.MonthStart: only `day - 30 <= MonthStart(day) <= day` is
  proved in general, plus three calendar examples. That the result is the
  first day of the month is not proved for every date.
- PomodoroSummary.DayOfMonth: only the range 1..31 is proved in general. That
  it is the calendar day of the month is shown by three examples, not proved
  for every date.
- PomodoroSummary.PeriodStart: for month grouping it inherits the same gap.
  Only "at most 30 days before the day" is proved, not "first of the month".
- PomodoroStore.SessionTable.StartSession: requires positive settings. The
  source accepts any stored settings; a non-positive stored duration is
  not modelled.
- Pomodoro.Close: requires the target to be completed or cancelled. The
  source only ever calls it with those two.

=== FILE: api.dfy ===
/** The HTTP layer (apps/backend/app/main.py): the CORS allow-list parsed
    from its comma-separated setting, the database health payload, and the
    mapping from service failures to HTTP status codes. */
module Api {
  import opened Common
  import opened Text
  import opened MemoLogs

  /** The trimmed, non-blank pieces of a list, in order. */
  function NonBlank(pieces: seq<string>): (r: seq<string>)
    ensures |r| <= |pieces|
    ensures forall o :: o in r ==> o != "" && exists p :: p in pieces && o == Strip(p)
    decreases |pieces|
  {
    if |pieces| == 0 then []
    else if Strip(pieces[0]) == "" then NonBlank(pieces[1..])
    else [Strip(pieces[0])] + NonBlank(pieces[1..])
  }

  /** Filtering distributes over concatenation. */
  lemma {:induction false} NonBlankAppend(a: seq<string>, b: seq<string>)
    ensures NonBlank(a + b) == NonBlank(a) + NonBlank(b)
    decreases |a|
  {
    if |a| == 0 {
      assert a + b == b;
    } else {
      assert (a + b)[0] == a[0];
      assert (a + b)[1..] == a[1..] + b;
      NonBlankAppend(a[1..], b);
    }
  }

  /** The allowed CORS origins: the comma-separated pieces of the setting,
      each trimmed, blank ones dropped. */
  function AllowedOrigins(setting: string): (r: seq<string>)
    ensures |r| <= |Split(setting, ',')|
    ensures forall o :: o in r ==> o != "" && exists p :: p in Split(setting, ',') && o == Strip(p)
  {
    NonBlank(Split(setting, ','))
  }

  predicate Clean(o: string, sep: char) {
    o != "" && sep !in o && !IsSpace(o[0]) && !IsSpace(o[|o| - 1])
  }

  /** What survives the filter is non-blank, trimmed and free of the separator. */
  lemma {:induction false} NonBlankClean(pieces: seq<string>, sep: char)
    requires forall p :: p in pieces ==> sep !in p
    ensures forall o :: o in NonBlank(pieces) ==> Clean(o, sep)
    decreases |pieces|
  {
    if |pieces| > 0 {
      assert forall p :: p in pieces[1..] ==> p in pieces;
      NonBlankClean(pieces[1..], sep);
      var head := Strip(pieces[0]);
      if head != "" {
        if sep in head {
          StripKeepsCharacters(pieces[0], sep);
        }
        assert Clean(head, sep);
      }
    }
  }

  /** Every origin is non-blank, trimmed and holds no comma. */
  lemma OriginsAreClean(setting: string)
    ensures forall o :: o in AllowedOrigins(setting) ==> Clean(o, ',')
  {
    SplitPiecesAreFree(setting, ',');
    NonBlankClean(Split(setting, ','), ',');
  }

  /** Two settings joined by a comma allow the origins of both, in order. */
  lemma OriginsOfJoinedSettings(a: string, b: string)
    ensures AllowedOrigins(a + [','] + b) == AllowedOrigins(a) + AllowedOrigins(b)
  {
    SplitAround(a, b, ',');
    NonBlankAppend(Split(a, ','), Split(b, ','));
  }

  /** A setting without a comma allows its trimmed self, or nothing when blank. */
  lemma SingleOrigin(setting: string)
    requires ',' !in setting
    ensures AllowedOrigins(setting) == if Strip(setting) == "" then [] else [Strip(setting)]
  {
    SplitWithoutSeparator(setting, ',');
    assert [setting][1..] == [];
    assert NonBlank([setting]) == if Strip(setting) == "" then NonBlank([]) else [Strip(setting)] + NonBlank([]);
  }

  /** What a failing service call raised: the not-found error (a kind of
      value error), another value error, or any other exception. */
  datatype Failure = MemoLogNotFound(message: string) | OtherValueError(message: string) | OtherException(message: string)

  predicate IsValueError(f: Failure) {
    f.MemoLogNotFound? || f.OtherValueError?
  }

  datatype HttpError = HttpError(status: int, detail: string)

  datatype Endpoint = ListMemos | GetMemo | CreateMemo | UpdateMemo | DeleteMemo

  /** The handlers that look for the not-found error before value errors. */
  predicate HasNotFoundBranch(endpoint: Endpoint) {
    endpoint == GetMemo || endpoint == UpdateMemo || endpoint == DeleteMemo
  }

  function FailurePrefix(endpoint: Endpoint): string {
    match endpoint
    case ListMemos => "Failed to list memo logs: "
    case GetMemo => "Failed to get memo log: "
    case CreateMemo => "Failed to create memo log: "
    case UpdateMemo => "Failed to update memo log: "
    case DeleteMemo => "Failed to delete memo log: "
  }

  /** The error response of a memo endpoint: 404 for a missing memo where the
      handler checks for it (ahead of the value-error branch), 400 for any
      other value error, 502 with a prefixed detail for everything else. */
  function MemoErrorResponse(endpoint: Endpoint, failure: Failure): (r: HttpError)
    ensures r.status == 404 || r.status == 400 || r.status == 502
    ensures r.status == 404 <==> HasNotFoundBranch(endpoint) && failure.MemoLogNotFound?
    ensures r.status == 400 <==> IsValueError(failure) && !(HasNotFoundBranch(endpoint) && failure.MemoLogNotFound?)
    ensures r.status == 502 <==> !IsValueError(failure)
    ensures r.status != 502 ==> r.detail == failure.message
    ensures r.status == 502 ==> r.detail == FailurePrefix(endpoint) + failure.message
  {
    if HasNotFoundBranch(endpoint) && failure.MemoLogNotFound? then HttpError(404, failure.message)
    else if IsValueError(failure) then HttpError(400, failure.message)
    else HttpError(502, FailurePrefix(endpoint) + failure.message)
  }

  /** Listing and creating never answer 404. */
  lemma ListAndCreateNeverNotFound(failure: Failure)
    ensures MemoErrorResponse(ListMemos, failure).status != 404
    ensures MemoErrorResponse(CreateMemo, failure).status != 404
    ensures failure.MemoLogNotFound? ==> MemoErrorResponse(CreateMemo, failure).status == 400
  {
  }

  const HealthFailurePrefix := "Supabase connection check failed: "

  /** The error response of the database health check: 503 for a value
      error with its message, 502 with a prefixed detail otherwise. */
  function HealthErrorResponse(failure: Failure): (r: HttpError)
    ensures IsValueError(failure) <==> r.status == 503
    ensures IsValueError(failure) ==> r.detail == failure.message
    ensures !IsValueError(failure) ==> r == HttpError(502, HealthFailurePrefix + failure.message)
  {
    if IsValueError(failure) then HttpError(503, failure.message)
    else HttpError(502, HealthFailurePrefix + failure.message)
  }

  /** What the health service reports. */
  datatype HealthCheck = HealthCheck(checkedTable: string, rowCount: int, totalCount: Option<int>)

  datatype HealthBody = HealthBody(status: string, database: string, checkedTable: string, rowCount: int, totalCount: Option<int>)

  /** The health payload: "ok" from "supabase", the checked table and counts
      as reported, the total count absent exactly when it was absent. */
  function HealthResponse(check: HealthCheck): (r: HealthBody)
    ensures r.status == "ok" && r.database == "supabase"
    ensures r.checkedTable == check.checkedTable && r.rowCount == check.rowCount
    ensures r.totalCount.None? <==> check.totalCount.None?
    ensures check.totalCount.Some? ==> r.totalCount == check.totalCount
  {
    HealthBody("ok", "supabase", check.checkedTable, check.rowCount, check.totalCount)
  }

  /** GET of one memo through the service and its error mapping. */
  function GetMemoEndpoint(table: MemoTable, id: MemoId, now: int): (r: Result<MemoOut, HttpError>)
    ensures r.Err? <==> !Visible(table, id)
    ensures r.Err? ==> r.error == HttpError(404, NotFoundMessage)
    ensures r.Ok? ==> r.value == MemoToOut(table.rows[id], TagsOf(table, id), now)
  {
    match GetMemoLog(table, id, now)
    case Ok(out) => Ok(out)
    case Err(NotFound(message)) => Err(MemoErrorResponse(GetMemo, MemoLogNotFound(message)))
  }

  /** PUT of one memo through the service and its error mapping. */
  function UpdateMemoEndpoint(table: MemoTable, id: MemoId, payload: MemoPayload, now: int): (r: Result<(MemoTable, MemoOut), HttpError>)
    ensures r.Err? <==> !Visible(table, id)
    ensures r.Err? ==> r.error == HttpError(404, NotFoundMessage)
    ensures r.Ok? ==> r == Ok(UpdateMemoLog(table, id, payload, now).value)
  {
    match UpdateMemoLog(table, id, payload, now)
    case Ok(v) => Ok(v)
    case Err(NotFound(message)) => Err(MemoErrorResponse(UpdateMemo, MemoLogNotFound(message)))
  }

  /** DELETE of one memo through the service and its error mapping. */
  function DeleteMemoEndpoint(table: MemoTable, id: MemoId): (r: Result<MemoTable, HttpError>)
    ensures r.Err? <==> !Visible(table, id)
    ensures r.Err? ==> r.error == HttpError(404, NotFoundMessage)
    ensures r.Ok? ==> id !in r.value.rows
  {
    match DeleteMemoLog(table, id)
    case Ok(v) => Ok(v)
    case Err(NotFound(message)) => Err(MemoErrorResponse(DeleteMemo, MemoLogNotFound(message)))
  }

  /** Deleting a memo twice answers 404 the second time. */
  lemma DeleteTwiceIsNotFound(table: MemoTable, id: MemoId)
    requires Visible(table, id)
    ensures DeleteMemoEndpoint(table, id).Ok?
    ensures DeleteMemoEndpoint(DeleteMemoEndpoint(table, id).value, id) == Err(HttpError(404, NotFoundMessage))
  {
  }
}

=== FILE: common.dfy ===
/** Option and Result values shared by the backend model: `None` stands for a
    missing column or a null, `Err` for a raised service exception. */
module Common {

  datatype Option<+T> = None | Some(value: T) {
    function GetOr(default: T): T {
      if Some? then value else default
    }
  }

  datatype Result<+T, +E> = Ok(value: T) | Err(error: E)

  function Max(a: int, b: int): int { if a < b then b else a }

  function Min(a: int, b: int): int { if a < b then a else b }
}

=== FILE: memo_logs.dfy ===
/** The memo log service (apps/backend/app/memo_logs.py): payload shaping,
    the row-to-response mapping, and get / create / update / delete over an
    abstract `memo_logs` table scoped to the fixed demo user. */
module MemoLogs {
  import opened Common
  import opened Text
  import opened Tags

  const DemoUserId: string := "00000000-0000-0000-0000-000000000001"

  type MemoId = nat

  /** A create or update request after request validation; dates are day numbers. */
  datatype MemoPayload = MemoPayload(
    title: string,
    bodyMd: string,
    logDate: int,
    tags: seq<string>,
    relatedSessionId: Option<string>)

  /** Request validation demands a non-empty body. */
  predicate ValidPayload(payload: MemoPayload) {
    |payload.bodyMd| >= 1
  }

  /** One `memo_logs` row. A `None` title is a row without that key; `None`
      timestamps are missing values. */
  datatype MemoRow = MemoRow(
    id: MemoId,
    userId: string,
    title: Option<string>,
    bodyMd: string,
    logDate: int,
    relatedSessionId: Option<string>,
    createdAt: Option<int>,
    updatedAt: Option<int>)

  /** The columns a create or update writes. */
  datatype MemoWrite = MemoWrite(title: string, bodyMd: string, logDate: int, relatedSessionId: Option<string>)

  /** A memo log as the API reports it. */
  datatype MemoOut = MemoOut(
    id: MemoId,
    userId: string,
    title: string,
    bodyMd: string,
    logDate: int,
    relatedSessionId: Option<string>,
    tags: seq<string>,
    createdAt: int,
    updatedAt: int)

  datatype MemoError = NotFound(message: string)

  const NotFoundMessage := "memo log not found"

  /** The columns written for a payload: the title trimmed, everything else as given. */
  function WritePayload(payload: MemoPayload): (w: MemoWrite)
    ensures w.title == Strip(payload.title)
    ensures w.bodyMd == payload.bodyMd && w.logDate == payload.logDate
    ensures w.relatedSessionId == payload.relatedSessionId
  {
    MemoWrite(Strip(payload.title), payload.bodyMd, payload.logDate, payload.relatedSessionId)
  }

  /** Writing back what was read changes nothing: the stored title is already trimmed. */
  lemma RewriteIsStable(payload: MemoPayload, again: MemoPayload)
    requires again == payload.(title := WritePayload(payload).title)
    ensures WritePayload(again) == WritePayload(payload)
  {
    StripIdempotent(payload.title);
  }

  /** The response for a row: a missing title key reads as "", missing
      timestamps read as `now`, and the tags are passed through. */
  function MemoToOut(row: MemoRow, tags: seq<string>, now: int): (r: MemoOut)
    ensures r.id == row.id && r.userId == row.userId && r.bodyMd == row.bodyMd
    ensures r.logDate == row.logDate && r.relatedSessionId == row.relatedSessionId
    ensures r.tags == tags
    ensures row.title.None? ==> r.title == ""
    ensures row.title.Some? ==> r.title == row.title.value
    ensures r.createdAt == row.createdAt.GetOr(now) && r.updatedAt == row.updatedAt.GetOr(now)
  {
    MemoOut(
      row.id, row.userId, row.title.GetOr(""), row.bodyMd, row.logDate,
      row.relatedSessionId, tags, row.createdAt.GetOr(now), row.updatedAt.GetOr(now))
  }

  /** The memo rows of all users, the memo tag links, and the next id. */
  datatype MemoTable = MemoTable(rows: map<MemoId, MemoRow>, tags: map<MemoId, seq<string>>, nextId: MemoId)

  /** Every row is stored under its own id, below the next id. */
  predicate TableInvariant(table: MemoTable) {
    forall id :: id in table.rows ==> table.rows[id].id == id && id < table.nextId
  }

  /** A row the demo user can see. */
  predicate Visible(table: MemoTable, id: MemoId) {
    id in table.rows && table.rows[id].userId == DemoUserId
  }

  function TagsOf(table: MemoTable, id: MemoId): seq<string> {
    if id in table.tags then table.tags[id] else []
  }

  /** Fetching one memo: not found exactly when the demo user has no row with this id. */
  function GetMemoLog(table: MemoTable, id: MemoId, now: int): (r: Result<MemoOut, MemoError>)
    ensures r.Err? <==> !Visible(table, id)
    ensures r.Err? ==> r.error == NotFound(NotFoundMessage)
    ensures r.Ok? ==> r.value == MemoToOut(table.rows[id], TagsOf(table, id), now)
  {
    if !Visible(table, id) then Err(NotFound(NotFoundMessage))
    else Ok(MemoToOut(table.rows[id], TagsOf(table, id), now))
  }

  /** Creating a memo: a new row under a fresh id holding the shaped payload,
      timestamped `now`, linked to the normalised tags. */
  function CreateMemoLog(table: MemoTable, payload: MemoPayload, now: int): (r: (MemoTable, MemoOut))
    ensures r.0.nextId == table.nextId + 1
    ensures table.nextId in r.0.rows
    ensures r.0.rows == table.rows[table.nextId := r.0.rows[table.nextId]]
    ensures var row := r.0.rows[table.nextId];
      && row.id == table.nextId && row.userId == DemoUserId
      && row.title == Some(WritePayload(payload).title)
      && MemoWrite(row.title.value, row.bodyMd, row.logDate, row.relatedSessionId) == WritePayload(payload)
    ensures r.0.tags == table.tags[table.nextId := Normalized(payload.tags)]
    ensures r.1 == MemoToOut(r.0.rows[table.nextId], Normalized(payload.tags), now)
    ensures TableInvariant(table) ==> TableInvariant(r.0) && table.nextId !in table.rows
  {
    var w := WritePayload(payload);
    var id := table.nextId;
    var row := MemoRow(id, DemoUserId, Some(w.title), w.bodyMd, w.logDate, w.relatedSessionId, Some(now), Some(now));
    var tags := Normalized(payload.tags);
    (MemoTable(table.rows[id := row], table.tags[id := tags], id + 1), MemoToOut(row, tags, now))
  }

  /** Updating a memo: not found exactly when the demo user has no row with
      this id; otherwise the written columns are replaced and the tag links
      replaced by the normalised new list. Nothing else changes. */
  function UpdateMemoLog(table: MemoTable, id: MemoId, payload: MemoPayload, now: int): (r: Result<(MemoTable, MemoOut), MemoError>)
    ensures r.Err? <==> !Visible(table, id)
    ensures r.Err? ==> r.error == NotFound(NotFoundMessage)
    ensures r.Ok? ==>
      var w := WritePayload(payload);
      var (updated, out) := r.value;
      && updated.nextId == table.nextId
      && updated.rows == table.rows[id := table.rows[id].(
           title := Some(w.title), bodyMd := w.bodyMd, logDate := w.logDate, relatedSessionId := w.relatedSessionId)]
      && updated.tags == table.tags[id := Normalized(payload.tags)]
      && out == MemoToOut(updated.rows[id], Normalized(payload.tags), now)
    ensures r.Ok? && TableInvariant(table) ==> TableInvariant(r.value.0)
  {
    if !Visible(table, id) then Err(NotFound(NotFoundMessage))
    else
      var w := WritePayload(payload);
      var row := table.rows[id].(title := Some(w.title), bodyMd := w.bodyMd, logDate := w.logDate, relatedSessionId := w.relatedSessionId);
      var tags := Normalized(payload.tags);
      Ok((MemoTable(table.rows[id := row], table.tags[id := tags], table.nextId), MemoToOut(row, tags, now)))
  }

  /** Deleting a memo: not found exactly when the demo user has no row with
      this id; otherwise that row, and only that row, is gone. */
  function DeleteMemoLog(table: MemoTable, id: MemoId): (r: Result<MemoTable, MemoError>)
    ensures r.Err? <==> !Visible(table, id)
    ensures r.Err? ==> r.error == NotFound(NotFoundMessage)
    ensures r.Ok? ==> r.value.rows == table.rows - {id} && r.value.nextId == table.nextId
    ensures r.Ok? ==> r.value.tags == table.tags
    ensures r.Ok? && TableInvariant(table) ==> TableInvariant(r.value)
  {
    if !Visible(table, id) then Err(NotFound(NotFoundMessage))
    else Ok(table.(rows := table.rows - {id}))
  }

  /** A created memo reads back as created: trimmed title, the body and date
      as sent, the normalised tags. */
  lemma CreateThenGet(table: MemoTable, payload: MemoPayload, now: int, later: int)
    requires TableInvariant(table)
    ensures var (created, out) := CreateMemoLog(table, payload, now);
      && GetMemoLog(created, out.id, later) == Ok(out)
      && out.title == Strip(payload.title) && out.bodyMd == payload.bodyMd
      && out.logDate == payload.logDate && out.tags == Normalized(payload.tags)
  {
  }

  /** An updated memo reads back with the new values; other memos read as before. */
  lemma UpdateThenGet(table: MemoTable, id: MemoId, other: MemoId, payload: MemoPayload, now: int)
    requires Visible(table, id) && other != id
    ensures UpdateMemoLog(table, id, payload, now).Ok?
    ensures var (updated, out) := UpdateMemoLog(table, id, payload, now).value;
      && GetMemoLog(updated, id, now) == Ok(out)
      && out.title == Strip(payload.title) && out.bodyMd == payload.bodyMd
      && GetMemoLog(updated, other, now) == GetMemoLog(table, other, now)
  {
    var w := WritePayload(payload);
    var row := table.rows[id].(title := Some(w.title), bodyMd := w.bodyMd, logDate := w.logDate, relatedSessionId := w.relatedSessionId);
    var tags := Normalized(payload.tags);
    var updated := MemoTable(table.rows[id := row], table.tags[id := tags], table.nextId);
    assert UpdateMemoLog(table, id, payload, now) == Ok((updated, MemoToOut(row, tags, now)));
    assert Visible(updated, id) && TagsOf(updated, id) == tags;
    assert Visible(updated, other) == Visible(table, other);
    if Visible(table, other) {
      assert updated.rows[other] == table.rows[other];
      assert TagsOf(updated, other) == TagsOf(table, other);
    }
  }

  /** A deleted memo is not found afterwards, and a second delete fails; other
      memos read as before. */
  lemma DeleteThenGet(table: MemoTable, id: MemoId, other: MemoId, now: int)
    requires Visible(table, id) && other != id
    ensures DeleteMemoLog(table, id).Ok?
    ensures var deleted := DeleteMemoLog(table, id).value;
      && GetMemoLog(deleted, id, now) == Err(NotFound(NotFoundMessage))
      && DeleteMemoLog(deleted, id) == Err(NotFound(NotFoundMessage))
      && GetMemoLog(deleted, other, now) == GetMemoLog(table, other, now)
  {
  }

  /** A row without a title key maps to the empty title, with its tags as given. */
  lemma MissingTitleExample(now: int)
    ensures var row := MemoRow(1, DemoUserId, None, "body", 20513, None, Some(5), Some(6));
      && MemoToOut(row, ["work"], now).title == ""
      && MemoToOut(row, ["work"], now).tags == ["work"]
  {
  }
}

=== FILE: pomodoro.dfy ===
/** Session timing and the per-session state machine of the pomodoro service
    (apps/backend/app/pomodoro.py). Instants are whole seconds since the Unix
    epoch; session ids stand for the database's UUIDs. */
module Pomodoro {
  import opened Common
  import opened Text

  datatype SessionType = Focus | ShortBreak | LongBreak

  datatype Status = Running | Paused | Completed | Cancelled {
    /** Running and paused sessions are the active ones; the other two are final. */
    predicate IsActive() { this == Running || this == Paused }
  }

  type SessionId = nat

  /** One row of the `pomodoro_sessions` table. */
  datatype SessionRow = SessionRow(
    id: SessionId,
    title: string,
    sessionType: SessionType,
    plannedSeconds: int,
    actualSeconds: int,
    startedAt: int,
    endedAt: Option<int>,
    plannedEndAt: Option<int>,
    lastNotifiedStep: Option<int>,
    status: Status,
    cycleIndex: int,
    createdAt: int)

  /** The start request after request validation. */
  datatype StartRequest = StartRequest(
    title: string,
    sessionType: SessionType,
    plannedSeconds: Option<int>,
    cycleIndex: int,
    tags: seq<string>)

  /** The bounds request validation puts on a start request. */
  predicate ValidStartRequest(request: StartRequest) {
    && (request.plannedSeconds.Some? ==> 1 <= request.plannedSeconds.value <= 24 * 60 * 60)
    && 1 <= request.cycleIndex <= 999
  }

  datatype Settings = Settings(
    focusMinutes: int,
    shortBreakMinutes: int,
    longBreakMinutes: int,
    longBreakEvery: int)

  /** A `pomodoro_settings` row as read; `None` is a null column. */
  datatype SettingsRow = SettingsRow(
    focusMinutes: Option<int>,
    shortBreakMinutes: Option<int>,
    longBreakMinutes: Option<int>,
    longBreakEvery: Option<int>)

  /** Python's `int(value or default)` on a nullable integer column. */
  function OrDefault(value: Option<int>, default: int): (r: int)
    ensures value.Some? && value.value != 0 ==> r == value.value
    ensures value.None? || value.value == 0 ==> r == default
  {
    if value.Some? && value.value != 0 then value.value else default
  }

  /** Settings as `get_pomodoro_settings` reports them: a null or zero column
      falls back to 25 / 5 / 20 minutes and a long break every 4 sessions. */
  function SettingsFromRow(row: SettingsRow): (s: Settings)
    ensures s.focusMinutes != 0 && s.shortBreakMinutes != 0
    ensures s.longBreakMinutes != 0 && s.longBreakEvery != 0
    ensures row == SettingsRow(None, None, None, None) ==> s == Settings(25, 5, 20, 4)
  {
    Settings(
      OrDefault(row.focusMinutes, 25),
      OrDefault(row.shortBreakMinutes, 5),
      OrDefault(row.longBreakMinutes, 20),
      OrDefault(row.longBreakEvery, 4))
  }

  /** Settings whose durations are all positive, as every settings update ensures. */
  predicate PositiveSettings(s: Settings) {
    s.focusMinutes >= 1 && s.shortBreakMinutes >= 1 && s.longBreakMinutes >= 1
  }

  /** The bounds a settings update request must meet. */
  predicate ValidSettingsUpdate(s: Settings) {
    && 1 <= s.focusMinutes <= 180
    && 1 <= s.shortBreakMinutes <= 60
    && 1 <= s.longBreakMinutes <= 120
    && 2 <= s.longBreakEvery <= 12
  }

  /** The settings row an update writes. */
  function StoredSettings(payload: Settings): (row: SettingsRow)
    ensures row.focusMinutes == Some(payload.focusMinutes)
    ensures row.shortBreakMinutes == Some(payload.shortBreakMinutes)
    ensures row.longBreakMinutes == Some(payload.longBreakMinutes)
    ensures row.longBreakEvery == Some(payload.longBreakEvery)
  {
    SettingsRow(
      Some(payload.focusMinutes), Some(payload.shortBreakMinutes),
      Some(payload.longBreakMinutes), Some(payload.longBreakEvery))
  }

  /** The settings an update reports from the row it got back: a null or zero
      column falls back to the requested value. */
  function SettingsAfterUpdate(stored: SettingsRow, payload: Settings): (s: Settings)
    ensures stored.focusMinutes.None? ==> s.focusMinutes == payload.focusMinutes
    ensures stored.shortBreakMinutes.None? ==> s.shortBreakMinutes == payload.shortBreakMinutes
    ensures stored.longBreakMinutes.None? ==> s.longBreakMinutes == payload.longBreakMinutes
    ensures stored.longBreakEvery.None? ==> s.longBreakEvery == payload.longBreakEvery
    ensures ValidSettingsUpdate(payload) && stored == StoredSettings(payload) ==> s == payload
  {
    Settings(
      OrDefault(stored.focusMinutes, payload.focusMinutes),
      OrDefault(stored.shortBreakMinutes, payload.shortBreakMinutes),
      OrDefault(stored.longBreakMinutes, payload.longBreakMinutes),
      OrDefault(stored.longBreakEvery, payload.longBreakEvery))
  }

  /** Reading the settings back after a valid update yields exactly the update,
      and its durations are positive. */
  lemma SettingsUpdateRoundTrip(payload: Settings)
    requires ValidSettingsUpdate(payload)
    ensures SettingsFromRow(StoredSettings(payload)) == payload
    ensures PositiveSettings(SettingsFromRow(StoredSettings(payload)))
  {
  }

  /** The per-type default length of a session, in seconds. */
  function DefaultPlannedSeconds(settings: Settings, sessionType: SessionType): (r: int)
    ensures sessionType == Focus ==> r == settings.focusMinutes * 60
    ensures sessionType == ShortBreak ==> r == settings.shortBreakMinutes * 60
    ensures sessionType == LongBreak ==> r == settings.longBreakMinutes * 60
    ensures PositiveSettings(settings) ==> r >= 60
  {
    match sessionType
    case Focus => settings.focusMinutes * 60
    case ShortBreak => settings.shortBreakMinutes * 60
    case LongBreak => settings.longBreakMinutes * 60
  }

  /** With a settings table that has no values, focus lasts 25 minutes, a short
      break 5 and a long break 20. */
  lemma DefaultDurations()
    ensures DefaultPlannedSeconds(SettingsFromRow(SettingsRow(None, None, None, None)), Focus) == 1500
    ensures DefaultPlannedSeconds(SettingsFromRow(SettingsRow(None, None, None, None)), ShortBreak) == 300
    ensures DefaultPlannedSeconds(SettingsFromRow(SettingsRow(None, None, None, None)), LongBreak) == 1200
  {
  }

  /** The planned length of a new session: the requested one, else the default for its type. */
  function PlannedSecondsFor(request: StartRequest, settings: Settings): (r: int)
    ensures request.plannedSeconds.Some? && request.plannedSeconds.value != 0 ==> r == request.plannedSeconds.value
    ensures request.plannedSeconds.None? ==> r == DefaultPlannedSeconds(settings, request.sessionType)
    ensures ValidStartRequest(request) && PositiveSettings(settings) ==> r >= 1
  {
    OrDefault(request.plannedSeconds, DefaultPlannedSeconds(settings, request.sessionType))
  }

  /** Seconds worked so far: the stored total, plus the current stretch when running. */
  function ElapsedSeconds(row: SessionRow, now: int): (r: int)
    ensures r >= 0
  {
    if row.status != Running then Max(0, row.actualSeconds)
    else Max(0, row.actualSeconds + Max(0, now - row.startedAt))
  }

  /** Seconds left of the planned length, never negative. */
  function RemainingSeconds(row: SessionRow, now: int): (r: int)
    ensures 0 <= r <= Max(0, row.plannedSeconds)
    ensures r == 0 <==> ElapsedSeconds(row, now) >= row.plannedSeconds
    ensures r > 0 ==> r + ElapsedSeconds(row, now) == row.plannedSeconds
  {
    Max(0, row.plannedSeconds - ElapsedSeconds(row, now))
  }

  /** The instant notifications count from: the start plus what remains, clamped at zero. */
  function PlannedEndAt(startedAt: int, remainingSeconds: int): (r: int)
    ensures r >= startedAt
    ensures remainingSeconds >= 0 ==> r - startedAt == remainingSeconds
    ensures remainingSeconds < 0 ==> r == startedAt
  {
    startedAt + Max(0, remainingSeconds)
  }

  /** The history limit clamped into [1, 500]. */
  function SafeLimit(limit: int): (r: int)
    ensures 1 <= r <= 500
    ensures 1 <= limit <= 500 ==> r == limit
    ensures limit > 500 ==> r == 500
    ensures limit < 1 ==> r == 1
  {
    Max(1, Min(500, limit))
  }

  /** The elapsed time of a session only grows as the clock advances. */
  lemma ElapsedMonotone(row: SessionRow, t1: int, t2: int)
    requires t1 <= t2
    ensures ElapsedSeconds(row, t1) <= ElapsedSeconds(row, t2)
  {
  }

  /** A session that is not running does not accumulate time. */
  lemma ElapsedFrozenUnlessRunning(row: SessionRow, t1: int, t2: int)
    requires row.status != Running
    ensures ElapsedSeconds(row, t1) == ElapsedSeconds(row, t2) == Max(0, row.actualSeconds)
  {
  }

  /** A running session accumulates exactly the wall-clock time that passes. */
  lemma ElapsedAccumulates(row: SessionRow, t1: int, t2: int)
    requires row.status == Running && row.actualSeconds >= 0
    requires row.startedAt <= t1 <= t2
    ensures ElapsedSeconds(row, t2) == ElapsedSeconds(row, t1) + (t2 - t1)
    ensures ElapsedSeconds(row, t1) == row.actualSeconds + (t1 - row.startedAt)
  {
  }

  /** 120 stored seconds plus one running minute give 180 seconds. */
  lemma ElapsedExample(row: SessionRow)
    requires row.status == Running && row.actualSeconds == 120 && row.startedAt == 1000
    ensures ElapsedSeconds(row, 1060) == 180
  {
  }

  /** A 300-second session with 250 seconds stored that ran six more minutes has nothing left. */
  lemma RemainingExample(row: SessionRow)
    requires row.status == Running && row.plannedSeconds == 300 && row.actualSeconds == 250
    requires row.startedAt == 1000
    ensures RemainingSeconds(row, 1360) == 0
  {
  }

  /** What every stored session row satisfies once written by the service. */
  predicate RowInvariant(row: SessionRow) {
    && row.plannedSeconds >= 1
    && 0 <= row.actualSeconds <= row.plannedSeconds
    && (row.status == Running <==> row.plannedEndAt.Some?)
    && (row.status == Running ==>
          row.plannedEndAt == Some(row.startedAt + (row.plannedSeconds - row.actualSeconds)))
    && (row.status.IsActive() <==> row.endedAt.None?)
  }

  /** For a running session the time left is the time until the planned end. */
  lemma RemainingIsTimeToPlannedEnd(row: SessionRow, now: int)
    requires RowInvariant(row) && row.status == Running && row.startedAt <= now
    ensures RemainingSeconds(row, now) == Max(0, row.plannedEndAt.value - now)
  {
  }

  datatype SessionError = NotFound | StateError(message: string)

  /** The row a successful start inserts. */
  function StartedRow(id: SessionId, request: StartRequest, plannedSeconds: int, now: int): (row: SessionRow)
    requires plannedSeconds >= 1
    ensures RowInvariant(row) && row.status == Running && row.id == id
    ensures row.title == Strip(request.title) && row.cycleIndex == request.cycleIndex
    ensures row.sessionType == request.sessionType && row.plannedSeconds == plannedSeconds
    ensures row.actualSeconds == 0 && row.lastNotifiedStep == Some(-1)
    ensures row.startedAt == now && row.plannedEndAt == Some(now + plannedSeconds)
    ensures ElapsedSeconds(row, now) == 0 && RemainingSeconds(row, now) == plannedSeconds
  {
    SessionRow(
      id, Strip(request.title), request.sessionType, plannedSeconds, 0,
      now, None, Some(PlannedEndAt(now, plannedSeconds)), Some(-1), Running,
      request.cycleIndex, now)
  }

  /** Pausing: only a running session; stores the elapsed time capped at the
      plan, clears the planned end, and freezes the remaining time. */
  function Pause(row: SessionRow, now: int): (r: Result<SessionRow, SessionError>)
    ensures r.Ok? <==> row.status == Running
    ensures r.Err? ==> r.error == StateError("session is not running")
    ensures r.Ok? ==> r.value == row.(
      status := Paused,
      plannedEndAt := None,
      actualSeconds := Min(row.plannedSeconds, ElapsedSeconds(row, now)))
    ensures r.Ok? && RowInvariant(row) ==> RowInvariant(r.value)
    ensures r.Ok? && RowInvariant(row) ==>
      forall t :: RemainingSeconds(r.value, t) == RemainingSeconds(row, now)
  {
    if row.status != Running then Err(StateError("session is not running"))
    else
      var elapsed := Min(row.plannedSeconds, ElapsedSeconds(row, now));
      Ok(row.(actualSeconds := elapsed, plannedEndAt := None, status := Paused))
  }

  /** Resuming: only a paused session; restarts the clock at `now` and moves
      the planned end to `now` plus what was left. */
  function Resume(row: SessionRow, now: int): (r: Result<SessionRow, SessionError>)
    ensures r.Ok? <==> row.status == Paused
    ensures r.Err? ==> r.error == StateError("session is not paused")
    ensures r.Ok? ==> r.value == row.(
      status := Running,
      startedAt := now,
      plannedEndAt := Some(PlannedEndAt(now, Max(0, row.plannedSeconds - row.actualSeconds))))
    ensures r.Ok? && RowInvariant(row) ==>
      && RowInvariant(r.value)
      && RemainingSeconds(r.value, now) == RemainingSeconds(row, now)
      && r.value.plannedEndAt == Some(now + RemainingSeconds(row, now))
  {
    if row.status != Paused then Err(StateError("session is not paused"))
    else
      var remaining := Max(0, row.plannedSeconds - row.actualSeconds);
      Ok(row.(startedAt := now, plannedEndAt := Some(PlannedEndAt(now, remaining)), status := Running))
  }

  /** Finishing or cancelling: only an active session; stores the elapsed time
      capped at the plan, the end instant, and the final status. */
  function Close(row: SessionRow, target: Status, now: int): (r: Result<SessionRow, SessionError>)
    requires target == Completed || target == Cancelled
    ensures r.Ok? <==> row.status.IsActive()
    ensures r.Err? ==> r.error == StateError("session is already finished")
    ensures r.Ok? ==> r.value == row.(
      status := target,
      endedAt := Some(now),
      plannedEndAt := None,
      actualSeconds := Min(row.plannedSeconds, ElapsedSeconds(row, now)))
    ensures r.Ok? && RowInvariant(row) ==> RowInvariant(r.value) && !r.value.status.IsActive()
  {
    if !row.status.IsActive() then Err(StateError("session is already finished"))
    else
      var elapsed := Min(row.plannedSeconds, ElapsedSeconds(row, now));
      Ok(row.(actualSeconds := elapsed, endedAt := Some(now), plannedEndAt := None, status := target))
  }

  /** Editing the title of an active session: a missing or empty new title
      keeps the old one; the result is trimmed. Nothing else changes. */
  function UpdateTitle(row: SessionRow, title: Option<string>): (r: Result<SessionRow, SessionError>)
    ensures r.Ok? <==> row.status.IsActive()
    ensures r.Err? ==> r.error == StateError("session is already finished")
    ensures r.Ok? && title.Some? && title.value != "" ==> r.value == row.(title := Strip(title.value))
    ensures r.Ok? && (title.None? || title.value == "") ==> r.value == row.(title := Strip(row.title))
    ensures r.Ok? && RowInvariant(row) ==> RowInvariant(r.value)
  {
    if !row.status.IsActive() then Err(StateError("session is already finished"))
    else
      var chosen := if title.Some? && title.value != "" then title.value else row.title;
      Ok(row.(title := Strip(chosen)))
  }

  /** Completed and cancelled are final: every transition refuses them. */
  lemma FinalStatesAreTerminal(row: SessionRow, now: int, target: Status, title: Option<string>)
    requires !row.status.IsActive()
    requires target == Completed || target == Cancelled
    ensures Pause(row, now).Err? && Resume(row, now).Err?
    ensures Close(row, target, now).Err? && UpdateTitle(row, title).Err?
  {
  }

  /** A pause of any length shifts the planned end by exactly that length, as
      long as the plan had not yet run out when pausing. */
  lemma PauseResumeShiftsPlannedEnd(row: SessionRow, t1: int, t2: int)
    requires RowInvariant(row) && row.status == Running
    requires row.startedAt <= t1 <= t2
    requires ElapsedSeconds(row, t1) <= row.plannedSeconds
    ensures Pause(row, t1).Ok? && Resume(Pause(row, t1).value, t2).Ok?
    ensures Resume(Pause(row, t1).value, t2).value.plannedEndAt == Some(row.plannedEndAt.value + (t2 - t1))
  {
  }

  /** A session as the API reports it. */
  datatype SessionOut = SessionOut(
    id: SessionId,
    title: string,
    sessionType: SessionType,
    plannedSeconds: int,
    actualSeconds: int,
    startedAt: int,
    endedAt: Option<int>,
    status: Status,
    cycleIndex: int,
    createdAt: int,
    tags: seq<string>,
    remainingSeconds: int)

  /** The API view of a row at `now`: the reported time is the elapsed time
      capped at the plan, the remaining time is what is left of the plan, and
      the two add up to the plan. */
  function ToSessionOut(row: SessionRow, tags: seq<string>, now: int): (r: SessionOut)
    ensures r.id == row.id && r.status == row.status && r.sessionType == row.sessionType
    ensures r.title == row.title && r.tags == tags && r.endedAt == row.endedAt
    ensures r.plannedSeconds == row.plannedSeconds
    ensures r.startedAt == row.startedAt && r.createdAt == row.createdAt
    ensures r.actualSeconds == Min(row.plannedSeconds, ElapsedSeconds(row, now))
    ensures r.remainingSeconds == RemainingSeconds(row, now)
    ensures r.actualSeconds <= r.plannedSeconds
    ensures r.remainingSeconds >= 0
    ensures r.plannedSeconds >= 0 ==> r.actualSeconds >= 0 && r.actualSeconds + r.remainingSeconds == r.plannedSeconds
    ensures RowInvariant(row) && row.status != Running ==> r.actualSeconds == row.actualSeconds
    ensures r.cycleIndex != 0 && (row.cycleIndex != 0 ==> r.cycleIndex == row.cycleIndex)
  {
    var elapsed := ElapsedSeconds(row, now);
    SessionOut(
      row.id, row.title, row.sessionType, row.plannedSeconds,
      Min(row.plannedSeconds, elapsed), row.startedAt, row.endedAt, row.status,
      if row.cycleIndex != 0 then row.cycleIndex else 1,
      row.createdAt, tags, RemainingSeconds(row, now))
  }
}

=== FILE: pomodoro_store.dfy ===
/** The `pomodoro_sessions` table and its tag links, with the service
    operations that read and change them (apps/backend/app/pomodoro.py).
    Rows are kept in insertion order, which is creation order. */
module PomodoroStore {
  import opened Common
  import opened Tags
  import opened Pomodoro

  /** What the service keeps true of the whole table: every row is well
      formed, ids are distinct and below the next id, and at most one session
      is running or paused. */
  predicate TableInvariant(rows: seq<SessionRow>, nextId: nat) {
    && (forall i :: 0 <= i < |rows| ==> RowInvariant(rows[i]) && rows[i].id < nextId)
    && (forall i, j :: 0 <= i < j < |rows| ==> rows[i].id != rows[j].id)
    && (forall i, j :: 0 <= i < j < |rows| && rows[i].status.IsActive() ==> !rows[j].status.IsActive())
  }

  /** The position of the row with this id, if any. */
  function IndexOf(rows: seq<SessionRow>, id: SessionId): (r: Option<nat>)
    ensures r.Some? ==> r.value < |rows| && rows[r.value].id == id
    ensures r.None? <==> forall i :: 0 <= i < |rows| ==> rows[i].id != id
  {
    if |rows| == 0 then None
    else if rows[|rows| - 1].id == id then Some(|rows| - 1)
    else IndexOf(rows[..|rows| - 1], id)
  }

  /** The newest running or paused row, if any. */
  function ActiveIndex(rows: seq<SessionRow>): (r: Option<nat>)
    ensures r.Some? ==> r.value < |rows| && rows[r.value].status.IsActive()
    ensures r.Some? ==> forall j :: r.value < j < |rows| ==> !rows[j].status.IsActive()
    ensures r.None? <==> forall i :: 0 <= i < |rows| ==> !rows[i].status.IsActive()
  {
    if |rows| == 0 then None
    else if rows[|rows| - 1].status.IsActive() then Some(|rows| - 1)
    else ActiveIndex(rows[..|rows| - 1])
  }

  /** A change to one existing session. */
  datatype Action = PauseAction | ResumeAction | CloseAction(target: Status) | EditAction(title: Option<string>)

  predicate WellFormedAction(action: Action) {
    action.CloseAction? ==> action.target == Completed || action.target == Cancelled
  }

  /** The row transition an action performs. A successful one keeps the id
      and the row invariant and never makes an inactive session active. */
  function Step(row: SessionRow, action: Action, now: int): (r: Result<SessionRow, SessionError>)
    requires WellFormedAction(action)
    ensures r.Ok? ==> r.value.id == row.id
    ensures r.Ok? && r.value.status.IsActive() ==> row.status.IsActive()
    ensures r.Ok? && RowInvariant(row) ==> RowInvariant(r.value)
  {
    match action
    case PauseAction => Pause(row, now)
    case ResumeAction => Resume(row, now)
    case CloseAction(target) => Close(row, target, now)
    case EditAction(title) => UpdateTitle(row, title)
  }

  /** Replacing one row by a well-formed row with the same id that is not
      newly active keeps the table invariant. */
  lemma ReplaceKeepsInvariant(rows: seq<SessionRow>, nextId: nat, i: nat, row: SessionRow)
    requires TableInvariant(rows, nextId) && i < |rows|
    requires row.id == rows[i].id && RowInvariant(row)
    requires row.status.IsActive() ==> rows[i].status.IsActive()
    ensures TableInvariant(rows[i := row], nextId)
  {
    var updated := rows[i := row];
    forall a, b | 0 <= a < b < |updated| && updated[a].status.IsActive()
      ensures !updated[b].status.IsActive()
    {
      assert rows[a].status.IsActive();
    }
  }

  /** Appending a well-formed row under a fresh id while nothing is active
      keeps the table invariant. */
  lemma AppendKeepsInvariant(rows: seq<SessionRow>, nextId: nat, row: SessionRow)
    requires TableInvariant(rows, nextId) && ActiveIndex(rows).None?
    requires row.id == nextId && RowInvariant(row)
    ensures TableInvariant(rows + [row], nextId + 1)
  {
  }

  /** The tags linked to a session; none when it has no links. */
  function TagsFor(tags: map<SessionId, seq<string>>, id: SessionId): seq<string> {
    if id in tags then tags[id] else []
  }

  /** The `k`-th newest session as the API shows it. */
  function Listed(rows: seq<SessionRow>, tags: map<SessionId, seq<string>>, k: nat, now: int): SessionOut
    requires k < |rows|
  {
    ToSessionOut(rows[|rows| - 1 - k], TagsFor(tags, rows[|rows| - 1 - k].id), now)
  }

  /** The session history, newest first, at most `SafeLimit(limit)` long. */
  function Listing(rows: seq<SessionRow>, tags: map<SessionId, seq<string>>, limit: int, now: int): (r: seq<SessionOut>)
    ensures |r| == Min(|rows|, SafeLimit(limit))
    ensures forall k :: 0 <= k < |r| ==> r[k] == Listed(rows, tags, k, now)
  {
    var n := Min(|rows|, SafeLimit(limit));
    seq(n, k requires 0 <= k < n => Listed(rows, tags, k, now))
  }

  /** The demo user's pomodoro sessions and their tags. */
  class SessionTable {
    var rows: seq<SessionRow>
    var tags: map<SessionId, seq<string>>
    var nextId: nat

    ghost predicate Valid()
      reads this
    {
      TableInvariant(rows, nextId)
    }

    constructor ()
      ensures Valid() && rows == [] && tags == map[] && nextId == 0
    {
      rows := [];
      tags := map[];
      nextId := 0;
    }

    function TagsOf(id: SessionId): seq<string>
      reads this
    {
      TagsFor(tags, id)
    }

    /** The running or paused session, if there is one, as its API view; in a
        valid table that is the view of the one active row. */
    function Current(now: int): (r: Option<SessionOut>)
      reads this
      ensures r.Some? <==> exists i :: 0 <= i < |rows| && rows[i].status.IsActive()
      ensures r.Some? ==> r.value.status.IsActive() && IndexOf(rows, r.value.id).Some?
      ensures r.Some? ==> r.value.tags == TagsOf(r.value.id)
      ensures r.Some? ==> exists i :: 0 <= i < |rows| && rows[i].status.IsActive() && r.value == ToSessionOut(rows[i], TagsOf(rows[i].id), now)
      ensures Valid() ==> forall i :: 0 <= i < |rows| && rows[i].status.IsActive() ==> r == Some(ToSessionOut(rows[i], TagsOf(rows[i].id), now))
      ensures Valid() && r.Some? ==> r.value.actualSeconds + r.value.remainingSeconds == r.value.plannedSeconds
    {
      match ActiveIndex(rows)
      case None => None
      case Some(i) => Some(ToSessionOut(rows[i], TagsOf(rows[i].id), now))
    }

    /** The session history, newest first, at most `SafeLimit(limit)` long. */
    function ListSessions(limit: int, now: int): (r: seq<SessionOut>)
      reads this
      ensures |r| == Min(|rows|, SafeLimit(limit))
      ensures forall k :: 0 <= k < |r| ==> r[k] == Listed(rows, tags, k, now)
    {
      Listing(rows, tags, limit, now)
    }

    /** The listed sessions of a valid table have distinct ids, and at most
        one of them is running or paused. */
    lemma ListedSessionsAreDistinct(limit: int, now: int)
      requires Valid()
      ensures var r := ListSessions(limit, now);
        && (forall a, b :: 0 <= a < b < |r| ==> r[a].id != r[b].id)
        && (forall a, b :: 0 <= a < b < |r| && r[a].status.IsActive() ==> !r[b].status.IsActive())
    {
      var r := ListSessions(limit, now);
      var n := |rows|;
      forall a, b | 0 <= a < b < |r|
        ensures r[a].id != r[b].id
        ensures r[a].status.IsActive() ==> !r[b].status.IsActive()
      {
        var i, j := n - 1 - b, n - 1 - a;
        assert r[a] == Listed(rows, tags, a, now) && r[b] == Listed(rows, tags, b, now);
        assert r[a].id == rows[j].id && r[a].status == rows[j].status;
        assert r[b].id == rows[i].id && r[b].status == rows[i].status;
        assert 0 <= i < j < n;
      }
    }

    /** Replaces the tag links of one session by the normalised list. */
    method LinkTags(id: SessionId, newTags: seq<string>) returns (linked: seq<string>)
      modifies this
      ensures linked == Normalized(newTags)
      ensures rows == old(rows) && nextId == old(nextId) && tags == old(tags)[id := linked]
    {
      linked := NormalizeTags(newTags);
      tags := tags[id := linked];
    }

    /** Starting a session: refused while another one is active; otherwise a
        new running row is appended and its normalised tags are linked. */
    method StartSession(request: StartRequest, settings: Settings, now: int) returns (r: Result<SessionOut, SessionError>)
      requires Valid() && ValidStartRequest(request) && PositiveSettings(settings)
      modifies this
      ensures Valid()
      ensures ActiveIndex(old(rows)).Some? ==>
        && r == Err(StateError("active session already exists"))
        && rows == old(rows) && tags == old(tags) && nextId == old(nextId)
      ensures ActiveIndex(old(rows)).None? ==>
        var row := StartedRow(old(nextId), request, PlannedSecondsFor(request, settings), now);
        && rows == old(rows) + [row]
        && nextId == old(nextId) + 1
        && tags == old(tags)[old(nextId) := Normalized(request.tags)]
        && r == Ok(ToSessionOut(row, Normalized(request.tags), now))
    {
      if ActiveIndex(rows).Some? {
        return Err(StateError("active session already exists"));
      }
      var planned := PlannedSecondsFor(request, settings);
      var row := StartedRow(nextId, request, planned, now);
      AppendKeepsInvariant(rows, nextId, row);
      rows := rows + [row];
      var linked := LinkTags(nextId, request.tags);
      nextId := nextId + 1;
      r := Ok(ToSessionOut(row, linked, now));
    }

    /** Looks a session up and applies one transition to it. */
    method Apply(id: SessionId, action: Action, now: int) returns (r: Result<SessionOut, SessionError>)
      requires Valid() && WellFormedAction(action)
      modifies this
      ensures Valid() && nextId == old(nextId) && tags == old(tags)
      ensures IndexOf(old(rows), id).None? ==> r == Err(NotFound) && rows == old(rows)
      ensures IndexOf(old(rows), id).Some? ==>
        var i := IndexOf(old(rows), id).value;
        var res := Step(old(rows)[i], action, now);
        && (res.Err? ==> r == Err(res.error) && rows == old(rows))
        && (res.Ok? ==> rows == old(rows)[i := res.value] && r == Ok(ToSessionOut(res.value, TagsOf(id), now)))
    {
      var found := IndexOf(rows, id);
      if found.None? {
        return Err(NotFound);
      }
      var i := found.value;
      var res := Step(rows[i], action, now);
      if res.Err? {
        return Err(res.error);
      }
      ReplaceKeepsInvariant(rows, nextId, i, res.value);
      rows := rows[i := res.value];
      r := Ok(ToSessionOut(res.value, TagsOf(id), now));
    }

    /** Pausing: not found, refused unless running, or the row is paused. */
    method PauseSession(id: SessionId, now: int) returns (r: Result<SessionOut, SessionError>)
      requires Valid()
      modifies this
      ensures Valid() && nextId == old(nextId) && tags == old(tags)
      ensures IndexOf(old(rows), id).None? ==> r == Err(NotFound) && rows == old(rows)
      ensures IndexOf(old(rows), id).Some? ==>
        var i := IndexOf(old(rows), id).value;
        var res := Pause(old(rows)[i], now);
        && (res.Err? ==> r == Err(res.error) && rows == old(rows))
        && (res.Ok? ==> rows == old(rows)[i := res.value] && r == Ok(ToSessionOut(res.value, TagsOf(id), now)))
    {
      r := Apply(id, PauseAction, now);
    }

    /** Resuming: not found, refused unless paused, or the row runs again. */
    method ResumeSession(id: SessionId, now: int) returns (r: Result<SessionOut, SessionError>)
      requires Valid()
      modifies this
      ensures Valid() && nextId == old(nextId) && tags == old(tags)
      ensures IndexOf(old(rows), id).None? ==> r == Err(NotFound) && rows == old(rows)
      ensures IndexOf(old(rows), id).Some? ==>
        var i := IndexOf(old(rows), id).value;
        var res := Resume(old(rows)[i], now);
        && (res.Err? ==> r == Err(res.error) && rows == old(rows))
        && (res.Ok? ==> rows == old(rows)[i := res.value] && r == Ok(ToSessionOut(res.value, TagsOf(id), now)))
    {
      r := Apply(id, ResumeAction, now);
    }

    /** Finishing: not found, refused once final, or the row is completed. */
    method FinishSession(id: SessionId, now: int) returns (r: Result<SessionOut, SessionError>)
      requires Valid()
      modifies this
      ensures Valid() && nextId == old(nextId) && tags == old(tags)
      ensures IndexOf(old(rows), id).None? ==> r == Err(NotFound) && rows == old(rows)
      ensures IndexOf(old(rows), id).Some? ==>
        var i := IndexOf(old(rows), id).value;
        var res := Close(old(rows)[i], Completed, now);
        && (res.Err? ==> r == Err(res.error) && rows == old(rows))
        && (res.Ok? ==> rows == old(rows)[i := res.value] && r == Ok(ToSessionOut(res.value, TagsOf(id), now)))
    {
      r := Apply(id, CloseAction(Completed), now);
    }

    /** Cancelling: not found, refused once final, or the row is cancelled. */
    method CancelSession(id: SessionId, now: int) returns (r: Result<SessionOut, SessionError>)
      requires Valid()
      modifies this
      ensures Valid() && nextId == old(nextId) && tags == old(tags)
      ensures IndexOf(old(rows), id).None? ==> r == Err(NotFound) && rows == old(rows)
      ensures IndexOf(old(rows), id).Some? ==>
        var i := IndexOf(old(rows), id).value;
        var res := Close(old(rows)[i], Cancelled, now);
        && (res.Err? ==> r == Err(res.error) && rows == old(rows))
        && (res.Ok? ==> rows == old(rows)[i := res.value] && r == Ok(ToSessionOut(res.value, TagsOf(id), now)))
    {
      r := Apply(id, CloseAction(Cancelled), now);
    }

    /** Editing an active session: the title as `UpdateTitle` decides, and the
        tag links replaced by the normalised new list, an absent list
        clearing them. */
    method UpdateSession(id: SessionId, title: Option<string>, newTags: Option<seq<string>>, now: int)
      returns (r: Result<SessionOut, SessionError>)
      requires Valid()
      modifies this
      ensures Valid() && nextId == old(nextId)
      ensures IndexOf(old(rows), id).None? ==> r == Err(NotFound) && rows == old(rows) && tags == old(tags)
      ensures IndexOf(old(rows), id).Some? ==>
        var i := IndexOf(old(rows), id).value;
        var res := UpdateTitle(old(rows)[i], title);
        && (res.Err? ==> r == Err(res.error) && rows == old(rows) && tags == old(tags))
        && (res.Ok? ==>
              && rows == old(rows)[i := res.value]
              && tags == old(tags)[id := Normalized(newTags.GetOr([]))]
              && r == Ok(ToSessionOut(res.value, Normalized(newTags.GetOr([])), now)))
    {
      var found := IndexOf(rows, id);
      if found.None? {
        return Err(NotFound);
      }
      var i := found.value;
      var res := UpdateTitle(rows[i], title);
      if res.Err? {
        return Err(res.error);
      }
      ReplaceKeepsInvariant(rows, nextId, i, res.value);
      rows := rows[i := res.value];
      var linked := LinkTags(id, newTags.GetOr([]));
      r := Ok(ToSessionOut(res.value, linked, now));
    }
  }
}

=== FILE: pomodoro_summary.dfy ===
/** The focus summary of the pomodoro service (apps/backend/app/pomodoro.py):
    completed focus sessions counted per day, week or month. Dates are day
    numbers counted from 1970-01-01. */
module PomodoroSummary {
  import opened Common
  import opened Pomodoro
  import opened PomodoroStore

  const SecondsPerDay := 86400

  datatype GroupBy = Day | Week | Month

  datatype SummaryRow = SummaryRow(periodStart: int, focusSessions: int, focusSeconds: int)

  /** The UTC calendar day of an instant. */
  function DayOf(t: int): (d: int)
    ensures d * SecondsPerDay <= t < (d + 1) * SecondsPerDay
  {
    t / SecondsPerDay
  }

  /** The weekday of a day, Monday being 0; 1970-01-01 was a Thursday. */
  function Weekday(day: int): (w: int)
    ensures 0 <= w < 7
  {
    (day + 3) % 7
  }

  /** The Monday on or before a day. */
  function WeekStart(day: int): (r: int)
    ensures Weekday(r) == 0
    ensures r <= day < r + 7
  {
    day - Weekday(day)
  }

  /** The remainder by seven of a number written as seven times a quotient
      plus a small remainder. */
  lemma ModSeven(x: int, q: int, r: int)
    requires x == 7 * q + r && 0 <= r < 7
    ensures x % 7 == r
  {
  }

  /** Days in the same Monday-based week share their week start. */
  lemma SameWeek(a: int, b: int)
    requires WeekStart(a) <= b < WeekStart(a) + 7
    ensures WeekStart(b) == WeekStart(a)
  {
    var s := WeekStart(a);
    var q := (s + 3) / 7;
    assert s + 3 == 7 * q;
    ModSeven(b + 3, q, b - s);
  }

  /** The day of the month of a day number, by the proleptic Gregorian
      calendar (the civil-from-days conversion with eras of 400 years). */
  function DayOfMonth(day: int): (r: int)
    ensures 1 <= r <= 31
  {
    var z := day + 719468;
    var era := z / 146097;
    var doe := z - era * 146097;
    var yoe := (doe - doe / 1460 + doe / 36524 - doe / 146096) / 365;
    var doy := doe - (365 * yoe + yoe / 4 - yoe / 100);
    var mp := (5 * doy + 2) / 153;
    doy - (153 * mp + 2) / 5 + 1
  }

  /** The first day of the month of a day. */
  function MonthStart(day: int): (r: int)
    ensures r <= day <= r + 30
  {
    day - (DayOfMonth(day) - 1)
  }

  /** The start of the period a day belongs to. */
  function PeriodStart(group: GroupBy, day: int): (r: int)
    ensures r <= day
    ensures group == Day ==> r == day
    ensures group == Week ==> Weekday(r) == 0 && day < r + 7
    ensures group == Month ==> day <= r + 30
  {
    match group
    case Day => day
    case Week => WeekStart(day)
    case Month => MonthStart(day)
  }

  /** 2026-03-02 is a Monday and 2026-03-01 a Sunday of the week before. */
  lemma WeekExamples()
    ensures Weekday(20514) == 0 && Weekday(20513) == 6
    ensures WeekStart(20515) == 20514 && WeekStart(20513) == 20507
  {
  }

  /** 2026-03-03 is the third of its month, which starts on 2026-03-01. */
  lemma MonthExampleMarch()
    ensures DayOfMonth(20515) == 3 && MonthStart(20515) == 20513
  {
    assert 739983 / 146097 == 5;
    assert 9498 / 1460 == 6 && 9498 / 36524 == 0 && 9498 / 146096 == 0;
    assert 9492 / 365 == 26;
    assert 26 / 4 == 6 && 26 / 100 == 0;
    assert 12 / 153 == 0;
    assert 2 / 5 == 0;
  }

  /** 2024-02-29 is the 29th of a leap-year February, which starts on 2024-02-01. */
  lemma MonthExampleLeapDay()
    ensures DayOfMonth(19782) == 29 && MonthStart(19782) == 19754
  {
    assert 739250 / 146097 == 5;
    assert 8765 / 1460 == 6 && 8765 / 36524 == 0 && 8765 / 146096 == 0;
    assert 8759 / 365 == 23;
    assert 23 / 4 == 5 && 23 / 100 == 0;
    assert 1827 / 153 == 11;
    assert 1685 / 5 == 337;
  }

  /** 2026-12-31 is the 31st of its month, which starts on 2026-12-01. */
  lemma MonthExampleYearEnd()
    ensures DayOfMonth(20818) == 31 && MonthStart(20818) == 20788
  {
    assert 740286 / 146097 == 5;
    assert 9801 / 1460 == 6 && 9801 / 36524 == 0 && 9801 / 146096 == 0;
    assert 9795 / 365 == 26;
    assert 26 / 4 == 6 && 26 / 100 == 0;
    assert 1527 / 153 == 9;
    assert 1379 / 5 == 275;
  }

  /** Only completed focus sessions with an end time are counted. */
  predicate Counted(s: SessionOut) {
    s.status == Completed && s.sessionType == Focus && s.endedAt.Some?
  }

  /** The period a counted session falls into, by the day it ended. */
  function KeyOf(group: GroupBy, s: SessionOut): (r: int)
    requires Counted(s)
    ensures r <= DayOf(s.endedAt.value)
  {
    PeriodStart(group, DayOf(s.endedAt.value))
  }

  /** The periods that have at least one counted session. */
  function Keys(sessions: seq<SessionOut>, group: GroupBy): set<int>
    decreases |sessions|
  {
    if |sessions| == 0 then {}
    else
      var s := sessions[|sessions| - 1];
      Keys(sessions[..|sessions| - 1], group) + (if Counted(s) then {KeyOf(group, s)} else {})
  }

  /** A period is a key exactly when some counted session falls into it. */
  lemma {:induction false} KeysMeaning(sessions: seq<SessionOut>, group: GroupBy, k: int)
    ensures k in Keys(sessions, group) <==>
      exists i :: 0 <= i < |sessions| && Counted(sessions[i]) && KeyOf(group, sessions[i]) == k
    decreases |sessions|
  {
    if |sessions| > 0 {
      var prev := sessions[..|sessions| - 1];
      KeysMeaning(prev, group, k);
      assert forall i :: 0 <= i < |prev| ==> prev[i] == sessions[i];
      if k in Keys(sessions, group) && k !in Keys(prev, group) {
        assert Counted(sessions[|sessions| - 1]);
      }
    }
  }

  /** The number of counted sessions in a period. */
  function Count(sessions: seq<SessionOut>, group: GroupBy, key: int): nat
    decreases |sessions|
  {
    if |sessions| == 0 then 0
    else
      var s := sessions[|sessions| - 1];
      Count(sessions[..|sessions| - 1], group, key) + (if Counted(s) && KeyOf(group, s) == key then 1 else 0)
  }

  /** The summed reported seconds of the counted sessions in a period. */
  function Seconds(sessions: seq<SessionOut>, group: GroupBy, key: int): int
    decreases |sessions|
  {
    if |sessions| == 0 then 0
    else
      var s := sessions[|sessions| - 1];
      Seconds(sessions[..|sessions| - 1], group, key) + (if Counted(s) && KeyOf(group, s) == key then s.actualSeconds else 0)
  }

  /** Taking one more session into account changes only its own period. */
  lemma PrefixStep(sessions: seq<SessionOut>, group: GroupBy, i: nat)
    requires i < |sessions|
    ensures var s := sessions[i];
      Keys(sessions[..i + 1], group) == Keys(sessions[..i], group) + (if Counted(s) then {KeyOf(group, s)} else {})
    ensures forall k {:trigger Count(sessions[..i + 1], group, k)} ::
      Count(sessions[..i + 1], group, k) ==
        Count(sessions[..i], group, k) + (if Counted(sessions[i]) && KeyOf(group, sessions[i]) == k then 1 else 0)
    ensures forall k {:trigger Seconds(sessions[..i + 1], group, k)} ::
      Seconds(sessions[..i + 1], group, k) ==
        Seconds(sessions[..i], group, k) + (if Counted(sessions[i]) && KeyOf(group, sessions[i]) == k then sessions[i].actualSeconds else 0)
  {
    assert sessions[..i + 1][..i] == sessions[..i];
    assert sessions[..i + 1][i] == sessions[i];
  }

  /** Appending one session changes the keys, and the count and seconds of
      one period, by that session alone. */
  lemma AppendStep(sessions: seq<SessionOut>, s: SessionOut, group: GroupBy, key: int)
    ensures Keys(sessions + [s], group) == Keys(sessions, group) + (if Counted(s) then {KeyOf(group, s)} else {})
    ensures Count(sessions + [s], group, key) ==
      Count(sessions, group, key) + (if Counted(s) && KeyOf(group, s) == key then 1 else 0)
    ensures Seconds(sessions + [s], group, key) ==
      Seconds(sessions, group, key) + (if Counted(s) && KeyOf(group, s) == key then s.actualSeconds else 0)
  {
    assert (sessions + [s])[..|sessions|] == sessions;
  }

  /** A period has counted sessions exactly when it is one of the keys. */
  lemma {:induction false} CountPositiveIffKey(sessions: seq<SessionOut>, group: GroupBy, key: int)
    ensures Count(sessions, group, key) > 0 <==> key in Keys(sessions, group)
    ensures key !in Keys(sessions, group) ==> Seconds(sessions, group, key) == 0
    decreases |sessions|
  {
    if |sessions| > 0 {
      CountPositiveIffKey(sessions[..|sessions| - 1], group, key);
    }
  }

  /** A session that is not counted changes no period. */
  lemma UncountedChangesNothing(sessions: seq<SessionOut>, s: SessionOut, group: GroupBy, key: int)
    requires !Counted(s)
    ensures Count(sessions + [s], group, key) == Count(sessions, group, key)
    ensures Seconds(sessions + [s], group, key) == Seconds(sessions, group, key)
  {
    assert (sessions + [s])[..|sessions|] == sessions;
  }

  predicate StrictlyDescending(ks: seq<int>) {
    forall a, b :: 0 <= a < b < |ks| ==> ks[a] > ks[b]
  }

  /** The head of a strictly descending list exceeds everything after it. */
  lemma HeadIsLargest(ks: seq<int>)
    requires StrictlyDescending(ks) && |ks| > 0
    ensures forall x :: x in ks[1..] ==> x < ks[0]
  {
    forall x | x in ks[1..]
      ensures x < ks[0]
    {
      var j :| 0 <= j < |ks[1..]| && ks[1..][j] == x;
      assert ks[j + 1] == x;
    }
  }

  /** Puts a new key into a strictly descending list at its place. */
  function Insert(ks: seq<int>, k: int): (r: seq<int>)
    requires StrictlyDescending(ks) && k !in ks
    ensures StrictlyDescending(r)
    ensures |r| == |ks| + 1
    ensures forall x :: x in r <==> x in ks || x == k
  {
    if |ks| == 0 then [k]
    else if k > ks[0] then [k] + ks
    else
      assert k in ks[1..] ==> k in ks;
      var rest := Insert(ks[1..], k);
      HeadIsLargest(ks);
      assert forall j :: 0 <= j < |rest| ==> rest[j] in rest;
      [ks[0]] + rest
  }

  /** The distinct keys of a list, largest first (`sorted(keys, reverse=True)`). */
  function SortDescending(keys: seq<int>): (r: seq<int>)
    requires forall a, b :: 0 <= a < b < |keys| ==> keys[a] != keys[b]
    ensures StrictlyDescending(r)
    ensures |r| == |keys|
    ensures forall x :: x in r <==> x in keys
  {
    if |keys| == 0 then []
    else
      var prev := keys[..|keys| - 1];
      assert forall x :: x in prev ==> x in keys;
      Insert(SortDescending(prev), keys[|keys| - 1])
  }

  /** What the bucket loop holds after the first `i` sessions: a row per
      period met so far with its count and seconds, and the periods in the
      order they were first met. */
  ghost predicate Tallied(sessions: seq<SessionOut>, group: GroupBy, i: nat, bucket: map<int, SummaryRow>, order: seq<int>)
    requires i <= |sessions|
  {
    && bucket.Keys == Keys(sessions[..i], group)
    && (forall k :: k in bucket <==> k in order)
    && (forall a, b :: 0 <= a < b < |order| ==> order[a] != order[b])
    && (forall k :: k in bucket ==>
          bucket[k] == SummaryRow(k, Count(sessions[..i], group, k), Seconds(sessions[..i], group, k)))
  }

  /** One turn of the bucket loop: a counted session adds one to its period,
      opening the period first when it is new. */
  function Bump(bucket: map<int, SummaryRow>, order: seq<int>, group: GroupBy, s: SessionOut): (map<int, SummaryRow>, seq<int>) {
    if !Counted(s) then (bucket, order)
    else
      var key := KeyOf(group, s);
      var current := if key in bucket then bucket[key] else SummaryRow(key, 0, 0);
      (bucket[key := SummaryRow(key, current.focusSessions + 1, current.focusSeconds + s.actualSeconds)],
       if key in bucket then order else order + [key])
  }

  /** One turn of the bucket loop keeps the rows right. */
  lemma BumpKeepsRows(sessions: seq<SessionOut>, group: GroupBy, i: nat, bucket: map<int, SummaryRow>, order: seq<int>)
    requires i < |sessions| && Tallied(sessions, group, i, bucket, order)
    ensures var (b, o) := Bump(bucket, order, group, sessions[i]);
      forall k :: k in b ==> b[k] == SummaryRow(k, Count(sessions[..i + 1], group, k), Seconds(sessions[..i + 1], group, k))
  {
    var s := sessions[i];
    var (b, o) := Bump(bucket, order, group, s);
    assert sessions[..i + 1] == sessions[..i] + [s];
    forall k | k in b
      ensures b[k] == SummaryRow(k, Count(sessions[..i + 1], group, k), Seconds(sessions[..i + 1], group, k))
    {
      AppendStep(sessions[..i], s, group, k);
      if Counted(s) && KeyOf(group, s) == k && k !in bucket {
        CountPositiveIffKey(sessions[..i], group, k);
      }
    }
  }

  /** One turn of the bucket loop keeps what the loop holds. */
  lemma BumpKeepsTallied(sessions: seq<SessionOut>, group: GroupBy, i: nat, bucket: map<int, SummaryRow>, order: seq<int>)
    requires i < |sessions| && Tallied(sessions, group, i, bucket, order)
    ensures var (b, o) := Bump(bucket, order, group, sessions[i]); Tallied(sessions, group, i + 1, b, o)
  {
    BumpKeepsRows(sessions, group, i, bucket, order);
    PrefixStep(sessions, group, i);
  }

  /** A bucket holds a row for exactly the periods with counted sessions,
      each with its count and its seconds. */
  ghost predicate Summed(sessions: seq<SessionOut>, group: GroupBy, bucket: map<int, SummaryRow>) {
    && bucket.Keys == Keys(sessions, group)
    && forall k :: k in bucket ==> bucket[k] == SummaryRow(k, Count(sessions, group, k), Seconds(sessions, group, k))
  }

  /** The summary of a session list: one row per period with counted
      sessions, newest period first, each with its count (at least one) and
      its seconds. */
  ghost predicate IsSummary(sessions: seq<SessionOut>, group: GroupBy, out: seq<SummaryRow>) {
    && (forall a, b :: 0 <= a < b < |out| ==> out[a].periodStart > out[b].periodStart)
    && (forall k :: k in Keys(sessions, group) <==> exists a :: 0 <= a < |out| && out[a].periodStart == k)
    && (forall a :: 0 <= a < |out| ==>
          && out[a].focusSessions == Count(sessions, group, out[a].periodStart) >= 1
          && out[a].focusSeconds == Seconds(sessions, group, out[a].periodStart))
  }

  /** The bucket loop: per period its row, and the periods in the order they
      were first met. */
  method Tally(sessions: seq<SessionOut>, group: GroupBy) returns (bucket: map<int, SummaryRow>, order: seq<int>)
    ensures Summed(sessions, group, bucket)
    ensures forall k :: k in bucket <==> k in order
    ensures forall a, b :: 0 <= a < b < |order| ==> order[a] != order[b]
  {
    bucket := map[];
    order := [];
    for i := 0 to |sessions|
      invariant Tallied(sessions, group, i, bucket, order)
    {
      BumpKeepsTallied(sessions, group, i, bucket, order);
      var s := sessions[i];
      if Counted(s) {
        var key := KeyOf(group, s);
        var current := SummaryRow(key, 0, 0);
        if key in bucket {
          current := bucket[key];
        } else {
          order := order + [key];
        }
        bucket := bucket[key := SummaryRow(key, current.focusSessions + 1, current.focusSeconds + s.actualSeconds)];
      }
    }
    assert sessions[..|sessions|] == sessions;
  }

  /** Rows read from the bucket in the order of the sorted keys are the
      summary rows, newest period first. */
  lemma RowsFollowKeys(sessions: seq<SessionOut>, group: GroupBy, bucket: map<int, SummaryRow>, keys: seq<int>, out: seq<SummaryRow>)
    requires Summed(sessions, group, bucket)
    requires StrictlyDescending(keys) && forall k :: k in keys <==> k in bucket
    requires |out| == |keys| && forall b :: 0 <= b < |keys| ==> keys[b] in bucket && out[b] == bucket[keys[b]]
    ensures IsSummary(sessions, group, out)
  {
    forall a | 0 <= a < |out|
      ensures out[a].periodStart == keys[a]
      ensures out[a].focusSessions == Count(sessions, group, out[a].periodStart) >= 1
    {
      assert keys[a] in keys;
      CountPositiveIffKey(sessions, group, keys[a]);
    }
    forall k | k in Keys(sessions, group)
      ensures exists a :: 0 <= a < |out| && out[a].periodStart == k
    {
      assert k in keys;
      var a :| 0 <= a < |keys| && keys[a] == k;
      assert out[a].periodStart == k;
    }
  }

  /** Buckets the sessions, then lists the rows by period, newest first. */
  method Summarize(sessions: seq<SessionOut>, group: GroupBy) returns (out: seq<SummaryRow>)
    ensures IsSummary(sessions, group, out)
  {
    var bucket, order := Tally(sessions, group);
    var keys := SortDescending(order);
    assert forall a :: 0 <= a < |keys| ==> keys[a] in keys;
    out := seq(|keys|, a requires 0 <= a < |keys| => bucket[keys[a]]);
    RowsFollowKeys(sessions, group, bucket, keys, out);
  }

  /** The summary endpoint: summarises the 500 newest sessions of the table. */
  method GetSummary(table: SessionTable, group: GroupBy, now: int) returns (out: seq<SummaryRow>)
    ensures IsSummary(table.ListSessions(500, now), group, out)
  {
    out := Summarize(table.ListSessions(500, now), group);
  }

  function ExampleSession(sessionType: SessionType, endedAt: int, actualSeconds: int): SessionOut {
    SessionOut(0, "Focus", sessionType, 1500, actualSeconds, endedAt, Some(endedAt), Completed, 1, endedAt, [], 0)
  }

  /** Two counted sessions ending in the same week and one uncounted session
      give a single week row holding both. */
  lemma SameWeekSessionsShareARow(s0: SessionOut, s1: SessionOut, s2: SessionOut)
    requires Counted(s0) && Counted(s1) && !Counted(s2)
    requires KeyOf(Week, s1) == KeyOf(Week, s0)
    ensures var sessions, key := [s0, s1, s2], KeyOf(Week, s0);
      && Keys(sessions, Week) == {key}
      && Count(sessions, Week, key) == 2
      && Seconds(sessions, Week, key) == s0.actualSeconds + s1.actualSeconds
  {
    var key := KeyOf(Week, s0);
    assert [] + [s0] == [s0] && [s0] + [s1] == [s0, s1] && [s0, s1] + [s2] == [s0, s1, s2];
    AppendStep([], s0, Week, key);
    AppendStep([s0], s1, Week, key);
    AppendStep([s0, s1], s2, Week, key);
  }

  /** Two completed focus sessions on Monday 2026-03-02 and Tuesday 2026-03-03
      (1500 and 1200 seconds) and a short break on Sunday 2026-03-01 give one
      week starting 2026-03-02 with 2 sessions and 2700 seconds. */
  lemma WeekSummaryExample()
    ensures var sessions := [
        ExampleSession(Focus, 1772445600, 1500),
        ExampleSession(Focus, 1772532000, 1200),
        ExampleSession(ShortBreak, 1772359200, 1500)];
      && Keys(sessions, Week) == {20514}
      && Count(sessions, Week, 20514) == 2
      && Seconds(sessions, Week, 20514) == 2700
  {
    var s0, s1, s2 := ExampleSession(Focus, 1772445600, 1500), ExampleSession(Focus, 1772532000, 1200),
      ExampleSession(ShortBreak, 1772359200, 1500);
    assert 1772445600 / 86400 == 20514 && 1772532000 / 86400 == 20515;
    assert WeekStart(20514) == 20514 && WeekStart(20515) == 20514;
    SameWeekSessionsShareARow(s0, s1, s2);
  }
}

=== FILE: push_notifications.dfy ===
/** Overdue notifications for running pomodoro sessions
    (apps/backend/app/push_notifications.py): the 15-minute step schedule, the
    notification text, and the dispatch loop over running sessions and active
    push subscriptions. Push sends are an abstract outcome per (session,
    subscription); database writes are recorded as effects. */
module PushNotifications {
  import opened Common
  import opened Text
  import opened Pomodoro

  const OverdueNotifyStepSeconds := 15 * 60

  /** The notification step at `now`: -1 before the planned end, otherwise the
      number of whole 15-minute periods since the planned end. */
  function NotificationStep(plannedEndAt: int, now: int): (step: int)
    ensures step >= -1
    ensures step == -1 <==> now < plannedEndAt
    ensures step >= 0 ==>
      plannedEndAt + step * OverdueNotifyStepSeconds <= now < plannedEndAt + (step + 1) * OverdueNotifyStepSeconds
  {
    var elapsed := now - plannedEndAt;
    if elapsed < 0 then -1 else elapsed / OverdueNotifyStepSeconds
  }

  /** The step never goes back as the clock advances. */
  lemma StepMonotone(plannedEndAt: int, t1: int, t2: int)
    requires t1 <= t2
    ensures NotificationStep(plannedEndAt, t1) <= NotificationStep(plannedEndAt, t2)
  {
  }

  /** One second early gives -1; the end itself 0; +15 minutes 1; +31 minutes 2. */
  lemma StepExamples(plannedEndAt: int)
    ensures NotificationStep(plannedEndAt, plannedEndAt - 1) == -1
    ensures NotificationStep(plannedEndAt, plannedEndAt) == 0
    ensures NotificationStep(plannedEndAt, plannedEndAt + 15 * 60) == 1
    ensures NotificationStep(plannedEndAt, plannedEndAt + 31 * 60) == 2
  {
  }

  /** A running, well-formed session is due for notification exactly when its
      remaining time has run out. */
  lemma StepStartsWhenTimeIsUp(row: SessionRow, now: int)
    requires RowInvariant(row) && row.status == Running && row.startedAt <= now
    ensures NotificationStep(row.plannedEndAt.value, now) >= 0 <==> RemainingSeconds(row, now) == 0
  {
    RemainingIsTimeToPlannedEnd(row, now);
  }

  const ReachedTitle: string := "ポモドーロ時間に到達しました"
  const OverrunTitle: string := "ポモドーロ超過時間のお知らせ"
  const ReachedText: string := "セッションが 00:00 になりました。"
  const OverrunPrefix: string := "計画時間を "
  const OverrunSuffix: string := " 分超過しています。"

  /** "作業" (work) for focus sessions, "休憩" (break) for the others. */
  function PhaseLabel(sessionType: SessionType): (phase: string)
    ensures phase == "作業" <==> sessionType == Focus
    ensures sessionType != Focus ==> phase == "休憩"
  {
    if sessionType == Focus then "作業" else "休憩"
  }

  /** Title and body of a notification: the "time reached" text up to step 0,
      afterwards the overrun in minutes, 15 per step. */
  function BuildNotificationPayload(step: int, sessionType: SessionType): (r: (string, string))
    ensures step <= 0 ==> r.0 == ReachedTitle && r.1 == PhaseLabel(sessionType) + ReachedText
    ensures step > 0 ==> r.0 == OverrunTitle && r.1 == OverrunPrefix + DecimalString(step * 15) + OverrunSuffix
    ensures r.0 == ReachedTitle <==> step <= 0
  {
    if step <= 0 then (ReachedTitle, PhaseLabel(sessionType) + ReachedText)
    else (OverrunTitle, OverrunPrefix + DecimalString(step * 15) + OverrunSuffix)
  }

  /** The "time reached" body shows the clock at 00:00. */
  lemma ReachedBodyShowsZero(step: int, sessionType: SessionType)
    requires step <= 0
    ensures Contains(BuildNotificationPayload(step, sessionType).1, "00:00")
  {
    assert ReachedText == "セッションが " + "00:00" + " になりました。";
    ContainsInMiddle(PhaseLabel(sessionType) + "セッションが ", "00:00", " になりました。");
    assert PhaseLabel(sessionType) + ReachedText == PhaseLabel(sessionType) + "セッションが " + "00:00" + " になりました。";
  }

  /** The number in an overrun body reads back as 15 minutes per step. */
  lemma OverrunBodyStatesMinutes(step: int, sessionType: SessionType)
    requires step > 0
    ensures var body := BuildNotificationPayload(step, sessionType).1;
      DecimalValue(body[|OverrunPrefix|..|body| - |OverrunSuffix|]) == step * 15
  {
    var digits := DecimalString(step * 15);
    var body := OverrunPrefix + digits + OverrunSuffix;
    assert body[|OverrunPrefix|..|body| - |OverrunSuffix|] == digits;
    DecimalRoundTrip(step * 15);
  }

  /** Different overrun steps give different bodies. */
  lemma OverrunBodiesDiffer(m: int, n: int, sessionType: SessionType)
    requires 0 < m && 0 < n && m != n
    ensures BuildNotificationPayload(m, sessionType).1 != BuildNotificationPayload(n, sessionType).1
  {
    OverrunBodyStatesMinutes(m, sessionType);
    OverrunBodyStatesMinutes(n, sessionType);
  }

  /** The stored last step as the dispatcher reads it (`int(value or -1)`):
      both a null and a stored 0 read as -1. */
  function LastStep(stored: Option<int>): (r: int)
    ensures stored.None? || stored.value == 0 ==> r == -1
    ensures stored.Some? && stored.value != 0 ==> r == stored.value
  {
    OrDefault(stored, -1)
  }

  /** A running session as the dispatcher loads it. */
  datatype RunningSession = RunningSession(
    id: SessionId,
    sessionType: Option<SessionType>,
    plannedEndAt: Option<int>,
    lastNotifiedStep: Option<int>)

  /** The dispatcher's view of a stored session row. */
  function RunningView(row: SessionRow): (r: RunningSession)
    ensures r.id == row.id && r.plannedEndAt == row.plannedEndAt
  {
    RunningSession(row.id, Some(row.sessionType), row.plannedEndAt, row.lastNotifiedStep)
  }

  /** The step a session is due to be notified of, or `None` when it is
      skipped: no planned end, not yet at the end, or the step was already
      notified. */
  function DueStep(session: RunningSession, now: int): (r: Option<nat>)
    ensures session.plannedEndAt.None? ==> r.None?
    ensures session.plannedEndAt.Some? ==>
      var step := NotificationStep(session.plannedEndAt.value, now);
      && (r.Some? <==> 0 <= step && LastStep(session.lastNotifiedStep) < step)
      && (r.Some? ==> r.value == step)
  {
    if session.plannedEndAt.None? then None
    else
      var step := NotificationStep(session.plannedEndAt.value, now);
      if step < 0 || step <= LastStep(session.lastNotifiedStep) then None else Some(step)
  }

  /** A stored running row is due only once its remaining time has run out;
      while nothing was recorded yet (last step -1), it is due exactly then. */
  lemma RunningRowDueWhenTimeIsUp(row: SessionRow, now: int)
    requires RowInvariant(row) && row.status == Running && row.startedAt <= now
    ensures DueStep(RunningView(row), now).Some? ==> RemainingSeconds(row, now) == 0
    ensures LastStep(row.lastNotifiedStep) == -1 ==>
      (DueStep(RunningView(row), now).Some? <==> RemainingSeconds(row, now) == 0)
  {
    StepStartsWhenTimeIsUp(row, now);
  }

  /** A session whose step-0 notice was recorded (stored 0) is due again for
      step 0: the stored 0 reads as -1. */
  lemma StepZeroIsSentAgain(session: RunningSession, now: int)
    requires session.plannedEndAt.Some? && session.lastNotifiedStep == Some(0)
    requires session.plannedEndAt.value <= now < session.plannedEndAt.value + OverdueNotifyStepSeconds
    ensures DueStep(session, now) == Some(0)
  {
  }

  /** Any other recorded step is never sent again while the clock stays in it. */
  lemma RecordedStepIsNotResent(session: RunningSession, now: int)
    requires session.plannedEndAt.Some? && session.lastNotifiedStep.Some?
    requires session.lastNotifiedStep.value != 0
    requires NotificationStep(session.plannedEndAt.value, now) <= session.lastNotifiedStep.value
    ensures DueStep(session, now).None?
  {
  }

  datatype PushPayload = PushPayload(title: string, body: string, tag: string)

  /** The message sent for a session at a step, tagged by session and step. */
  function PayloadFor(session: RunningSession, step: nat): (p: PushPayload)
    ensures (p.title, p.body) == BuildNotificationPayload(step, session.sessionType.GetOr(Focus))
    ensures p.tag == "pomodoro-" + DecimalString(session.id) + "-step-" + DecimalString(step)
  {
    var (title, body) := BuildNotificationPayload(step, session.sessionType.GetOr(Focus));
    PushPayload(title, body, "pomodoro-" + DecimalString(session.id) + "-step-" + DecimalString(step))
  }

  /** An active push subscription. */
  datatype Subscription = Subscription(id: nat, endpoint: string)

  /** What one push send did: delivered, refused with an HTTP status (if the
      push service answered), or failed in some other way. */
  datatype SendOutcome = Delivered | Rejected(statusCode: Option<int>) | Crashed

  /** A refusal that means the subscription no longer exists. */
  predicate Gone(outcome: SendOutcome)
    ensures Gone(outcome) ==> outcome.Rejected? && outcome.statusCode.Some?
    ensures outcome.Rejected? && outcome.statusCode.Some? && outcome.statusCode.value in {404, 410} ==> Gone(outcome)
  {
    outcome.Rejected? && (outcome.statusCode == Some(404) || outcome.statusCode == Some(410))
  }

  /** What a dispatch does to the outside world, in order. */
  datatype Effect =
    | Push(sessionId: SessionId, subscriptionId: nat, step: nat, payload: PushPayload)
    | Deactivate(subscriptionId: nat)
    | MarkNotified(sessionId: SessionId, step: nat)

  /** The dispatch counters, the subscriptions deactivated so far, whether the
      current session had a delivered send, and the effects so far. */
  datatype Tally = Tally(sent: nat, deactivated: nat, gone: set<nat>, delivered: bool, log: seq<Effect>)

  const Initial := Tally(0, 0, {}, false, [])

  /** One send of a session's message to one subscription. A subscription
      deactivated earlier in this dispatch is skipped; a 404 or 410 answer
      deactivates it; other failures change nothing. */
  function Attempt(session: RunningSession, step: nat, sub: Subscription, outcome: (SessionId, nat) -> SendOutcome, t: Tally): (r: Tally)
    ensures sub.id in t.gone ==> r == t
    ensures sub.id !in t.gone ==>
      var push := Push(session.id, sub.id, step, PayloadFor(session, step));
      var answer := outcome(session.id, sub.id);
      && (answer == Delivered ==> r == t.(sent := t.sent + 1, delivered := true, log := t.log + [push]))
      && (Gone(answer) ==>
            r == t.(deactivated := t.deactivated + 1, gone := t.gone + {sub.id}, log := t.log + [push, Deactivate(sub.id)]))
      && (answer != Delivered && !Gone(answer) ==> r == t.(log := t.log + [push]))
  {
    if sub.id in t.gone then t
    else
      var push := Push(session.id, sub.id, step, PayloadFor(session, step));
      match outcome(session.id, sub.id)
      case Delivered => t.(sent := t.sent + 1, delivered := true, log := t.log + [push])
      case Rejected(code) =>
        if code == Some(404) || code == Some(410) then
          t.(deactivated := t.deactivated + 1, gone := t.gone + {sub.id}, log := t.log + [push, Deactivate(sub.id)])
        else t.(log := t.log + [push])
      case Crashed => t.(log := t.log + [push])
  }

  /** Sending one session's message to the subscriptions in order. */
  function Broadcast(session: RunningSession, step: nat, subs: seq<Subscription>, outcome: (SessionId, nat) -> SendOutcome, t: Tally): (r: Tally)
    ensures t.log <= r.log && t.gone <= r.gone
    ensures t.sent <= r.sent && t.deactivated <= r.deactivated
    ensures r.sent + r.deactivated <= t.sent + t.deactivated + |subs|
    decreases |subs|
  {
    if |subs| == 0 then t
    else Attempt(session, step, subs[|subs| - 1], outcome, Broadcast(session, step, subs[..|subs| - 1], outcome, t))
  }

  /** One session of the dispatch: skipped unless due; otherwise its message
      goes to every subscription, and its step is recorded when at least one
      send was delivered. */
  function Visit(session: RunningSession, subs: seq<Subscription>, outcome: (SessionId, nat) -> SendOutcome, now: int, t: Tally): (r: Tally)
    ensures DueStep(session, now).None? ==> r == t
    ensures DueStep(session, now).Some? ==> !r.delivered
    ensures r.sent + r.deactivated <= t.sent + t.deactivated + |subs|
  {
    match DueStep(session, now)
    case None => t
    case Some(step) =>
      var after := Broadcast(session, step, subs, outcome, t.(delivered := false));
      if after.delivered then after.(delivered := false, log := after.log + [MarkNotified(session.id, step)])
      else after.(delivered := false)
  }

  /** The sessions visited in order. */
  function VisitAll(sessions: seq<RunningSession>, subs: seq<Subscription>, outcome: (SessionId, nat) -> SendOutcome, now: int): (r: Tally)
    ensures !r.delivered
    ensures r.sent + r.deactivated <= |sessions| * |subs|
    decreases |sessions|
  {
    if |sessions| == 0 then Initial
    else
      var n := |sessions| - 1;
      assert n * |subs| + |subs| == |sessions| * |subs|;
      Visit(sessions[n], subs, outcome, now, VisitAll(sessions[..n], subs, outcome, now))
  }

  datatype DispatchResult = DispatchResult(checkedSessions: nat, sentNotifications: nat, deactivatedSubscriptions: nat)

  /** The whole dispatch: with no subscriptions or no running sessions it
      returns at once; otherwise every session is visited. */
  function Dispatch(sessions: seq<RunningSession>, subs: seq<Subscription>, outcome: (SessionId, nat) -> SendOutcome, now: int): (r: (DispatchResult, seq<Effect>))
    ensures r.0.checkedSessions == |sessions|
    ensures |subs| == 0 || |sessions| == 0 ==> r.0.sentNotifications == 0 && r.0.deactivatedSubscriptions == 0 && r.1 == []
  {
    if |subs| == 0 || |sessions| == 0 then (DispatchResult(|sessions|, 0, 0), [])
    else
      var t := VisitAll(sessions, subs, outcome, now);
      (DispatchResult(|sessions|, t.sent, t.deactivated), t.log)
  }

  /** The dispatch loop: sessions in order, and for each due one its message
      to every subscription not deactivated in this run. */
  /** The inner loop of the dispatch: one session's message sent to every
      subscription in turn, skipping those deactivated earlier. */
  method SendToAll(session: RunningSession, step: nat, subscriptions: seq<Subscription>, outcome: (SessionId, nat) -> SendOutcome,
                   sent0: nat, deactivated0: nat, deactivatedIds0: set<nat>, writes0: seq<Effect>)
    returns (sent: nat, deactivated: nat, deactivatedIds: set<nat>, sentInThisStep: bool, writes: seq<Effect>)
    ensures Tally(sent, deactivated, deactivatedIds, sentInThisStep, writes)
         == Broadcast(session, step, subscriptions, outcome, Tally(sent0, deactivated0, deactivatedIds0, false, writes0))
  {
    sent, deactivated, deactivatedIds, sentInThisStep, writes := sent0, deactivated0, deactivatedIds0, false, writes0;
    var payload := PayloadFor(session, step);
    for j := 0 to |subscriptions|
      invariant Broadcast(session, step, subscriptions[..j], outcome, Tally(sent0, deactivated0, deactivatedIds0, false, writes0))
             == Tally(sent, deactivated, deactivatedIds, sentInThisStep, writes)
    {
      assert subscriptions[..j + 1][..j] == subscriptions[..j];
      var sub := subscriptions[j];
      if sub.id in deactivatedIds {
        continue;
      }
      var push := Push(session.id, sub.id, step, payload);
      match outcome(session.id, sub.id)
      case Delivered =>
        writes := writes + [push];
        sent := sent + 1;
        sentInThisStep := true;
      case Rejected(code) =>
        writes := writes + [push];
        if code == Some(404) || code == Some(410) {
          writes := writes + [Deactivate(sub.id)];
          deactivatedIds := deactivatedIds + {sub.id};
          deactivated := deactivated + 1;
        }
      case Crashed =>
        writes := writes + [push];
    }
    assert subscriptions[..|subscriptions|] == subscriptions;
  }

  method DispatchDueNotifications(sessions: seq<RunningSession>, subscriptions: seq<Subscription>, outcome: (SessionId, nat) -> SendOutcome, now: int)
    returns (result: DispatchResult, writes: seq<Effect>)
    ensures (result, writes) == Dispatch(sessions, subscriptions, outcome, now)
  {
    if |subscriptions| == 0 || |sessions| == 0 {
      return DispatchResult(|sessions|, 0, 0), [];
    }
    var sent: nat := 0;
    var deactivated: nat := 0;
    var deactivatedIds: set<nat> := {};
    writes := [];
    for i := 0 to |sessions|
      invariant VisitAll(sessions[..i], subscriptions, outcome, now) == Tally(sent, deactivated, deactivatedIds, false, writes)
    {
      assert sessions[..i + 1][..i] == sessions[..i];
      var session := sessions[i];
      if session.plannedEndAt.None? {
        continue;
      }
      var step := NotificationStep(session.plannedEndAt.value, now);
      if step < 0 {
        continue;
      }
      var lastStep := LastStep(session.lastNotifiedStep);
      if step <= lastStep {
        continue;
      }
      var sentInThisStep;
      sent, deactivated, deactivatedIds, sentInThisStep, writes :=
        SendToAll(session, step, subscriptions, outcome, sent, deactivated, deactivatedIds, writes);
      if sentInThisStep {
        writes := writes + [MarkNotified(session.id, step)];
      }
    }
    assert sessions[..|sessions|] == sessions;
    result := DispatchResult(|sessions|, sent, deactivated);
  }

  /** The number of delivered pushes in an effect log. */
  function DeliveredPushes(log: seq<Effect>, outcome: (SessionId, nat) -> SendOutcome): nat
    decreases |log|
  {
    if |log| == 0 then 0
    else
      var e := log[|log| - 1];
      DeliveredPushes(log[..|log| - 1], outcome) + (if e.Push? && outcome(e.sessionId, e.subscriptionId) == Delivered then 1 else 0)
  }

  /** The number of deactivations in an effect log. */
  function Deactivations(log: seq<Effect>): nat
    decreases |log|
  {
    if |log| == 0 then 0
    else Deactivations(log[..|log| - 1]) + (if log[|log| - 1].Deactivate? then 1 else 0)
  }

  /** No subscription is deactivated twice. */
  predicate DeactivatedOnce(log: seq<Effect>) {
    forall i, j :: 0 <= i < j < |log| && log[i].Deactivate? && log[j].Deactivate? ==>
      log[i].subscriptionId != log[j].subscriptionId
  }

  /** No push goes to a subscription after it was deactivated. */
  predicate SilentAfterGone(log: seq<Effect>) {
    forall i, j :: 0 <= i < j < |log| && log[i].Deactivate? && log[j].Push? ==>
      log[j].subscriptionId != log[i].subscriptionId
  }

  /** The bookkeeping of a dispatch agrees with what it did. */
  predicate Consistent(t: Tally, outcome: (SessionId, nat) -> SendOutcome) {
    && t.sent == DeliveredPushes(t.log, outcome)
    && t.deactivated == Deactivations(t.log) == |t.gone|
    && (forall i :: 0 <= i < |t.log| && t.log[i].Deactivate? ==> t.log[i].subscriptionId in t.gone)
    && DeactivatedOnce(t.log)
    && SilentAfterGone(t.log)
  }

  lemma AppendOne(log: seq<Effect>, e: Effect, outcome: (SessionId, nat) -> SendOutcome)
    ensures DeliveredPushes(log + [e], outcome) ==
      DeliveredPushes(log, outcome) + (if e.Push? && outcome(e.sessionId, e.subscriptionId) == Delivered then 1 else 0)
    ensures Deactivations(log + [e]) == Deactivations(log) + (if e.Deactivate? then 1 else 0)
  {
    assert (log + [e])[..|log|] == log;
  }

  /** Logging a push to a subscription that is still active keeps the books. */
  lemma PushKeepsConsistent(t: Tally, e: Effect, outcome: (SessionId, nat) -> SendOutcome)
    requires Consistent(t, outcome) && e.Push? && e.subscriptionId !in t.gone
    ensures var delivered := if outcome(e.sessionId, e.subscriptionId) == Delivered then 1 else 0;
      Consistent(t.(sent := t.sent + delivered, log := t.log + [e]), outcome)
  {
    AppendOne(t.log, e, outcome);
    var log := t.log + [e];
    assert forall i :: 0 <= i < |t.log| ==> log[i] == t.log[i];
  }

  /** Logging the deactivation of a subscription not yet deactivated keeps the books. */
  lemma DeactivateKeepsConsistent(t: Tally, id: nat, outcome: (SessionId, nat) -> SendOutcome)
    requires Consistent(t, outcome) && id !in t.gone
    ensures Consistent(t.(deactivated := t.deactivated + 1, gone := t.gone + {id}, log := t.log + [Deactivate(id)]), outcome)
  {
    AppendOne(t.log, Deactivate(id), outcome);
    var log := t.log + [Deactivate(id)];
    assert forall i :: 0 <= i < |t.log| ==> log[i] == t.log[i];
  }

  lemma AttemptConsistent(session: RunningSession, step: nat, sub: Subscription, outcome: (SessionId, nat) -> SendOutcome, t: Tally)
    requires Consistent(t, outcome)
    ensures Consistent(Attempt(session, step, sub, outcome, t), outcome)
  {
    if sub.id !in t.gone {
      var push := Push(session.id, sub.id, step, PayloadFor(session, step));
      var r := Attempt(session, step, sub, outcome, t);
      PushKeepsConsistent(t, push, outcome);
      var pushed := t.(log := t.log + [push]);
      if outcome(session.id, sub.id) == Delivered {
        assert r == pushed.(sent := t.sent + 1, delivered := true);
      } else if Gone(outcome(session.id, sub.id)) {
        DeactivateKeepsConsistent(pushed, sub.id, outcome);
        assert t.log + [push, Deactivate(sub.id)] == pushed.log + [Deactivate(sub.id)];
        assert r == pushed.(deactivated := t.deactivated + 1, gone := t.gone + {sub.id}, log := pushed.log + [Deactivate(sub.id)]);
      } else {
        assert r == pushed;
      }
    }
  }

  lemma {:induction false} BroadcastConsistent(session: RunningSession, step: nat, subs: seq<Subscription>, outcome: (SessionId, nat) -> SendOutcome, t: Tally)
    requires Consistent(t, outcome)
    ensures Consistent(Broadcast(session, step, subs, outcome, t), outcome)
    decreases |subs|
  {
    if |subs| > 0 {
      BroadcastConsistent(session, step, subs[..|subs| - 1], outcome, t);
      AttemptConsistent(session, step, subs[|subs| - 1], outcome, Broadcast(session, step, subs[..|subs| - 1], outcome, t));
    }
  }

  lemma VisitConsistent(session: RunningSession, subs: seq<Subscription>, outcome: (SessionId, nat) -> SendOutcome, now: int, t: Tally)
    requires Consistent(t, outcome)
    ensures Consistent(Visit(session, subs, outcome, now, t), outcome)
  {
    if DueStep(session, now).Some? {
      var step := DueStep(session, now).value;
      var after := Broadcast(session, step, subs, outcome, t.(delivered := false));
      BroadcastConsistent(session, step, subs, outcome, t.(delivered := false));
      AppendOne(after.log, MarkNotified(session.id, step), outcome);
    }
  }

  lemma {:induction false} VisitAllConsistent(sessions: seq<RunningSession>, subs: seq<Subscription>, outcome: (SessionId, nat) -> SendOutcome, now: int)
    ensures Consistent(VisitAll(sessions, subs, outcome, now), outcome)
    decreases |sessions|
  {
    if |sessions| > 0 {
      VisitAllConsistent(sessions[..|sessions| - 1], subs, outcome, now);
      VisitConsistent(sessions[|sessions| - 1], subs, outcome, now, VisitAll(sessions[..|sessions| - 1], subs, outcome, now));
    }
  }

  /** The counters of a dispatch: `sent` is the number of delivered pushes and
      `deactivated` the number of deactivations; no subscription is
      deactivated twice, and none is pushed to after its deactivation. */
  lemma DispatchCounters(sessions: seq<RunningSession>, subs: seq<Subscription>, outcome: (SessionId, nat) -> SendOutcome, now: int)
    ensures var (result, log) := Dispatch(sessions, subs, outcome, now);
      && result.sentNotifications == DeliveredPushes(log, outcome)
      && result.deactivatedSubscriptions == Deactivations(log)
      && DeactivatedOnce(log)
      && SilentAfterGone(log)
  {
    VisitAllConsistent(sessions, subs, outcome, now);
  }

  /** The deactivation rule read off a log: a subscription is deactivated
      right after a push to it was answered 404 or 410, and at no other time. */
  predicate DeactivatesExactlyGone(log: seq<Effect>, outcome: (SessionId, nat) -> SendOutcome) {
    && (forall k :: 0 <= k < |log| && log[k].Deactivate? ==>
          && 0 < k && log[k - 1].Push? && log[k - 1].subscriptionId == log[k].subscriptionId
          && Gone(outcome(log[k - 1].sessionId, log[k - 1].subscriptionId)))
    && (forall k :: 0 <= k < |log| && log[k].Push? && Gone(outcome(log[k].sessionId, log[k].subscriptionId)) ==>
          k + 1 < |log| && log[k + 1] == Deactivate(log[k].subscriptionId))
  }

  /** Appending an effect that is neither a deactivation nor a refused push keeps the rule. */
  lemma QuietEffectKeepsRule(log: seq<Effect>, e: Effect, outcome: (SessionId, nat) -> SendOutcome)
    requires DeactivatesExactlyGone(log, outcome)
    requires !e.Deactivate? && !(e.Push? && Gone(outcome(e.sessionId, e.subscriptionId)))
    ensures DeactivatesExactlyGone(log + [e], outcome)
  {
    var l := log + [e];
    forall k | 0 <= k < |l| && l[k].Deactivate?
      ensures 0 < k && l[k - 1].Push? && l[k - 1].subscriptionId == l[k].subscriptionId
    {
      assert k < |log| && l[k] == log[k] && l[k - 1] == log[k - 1];
    }
  }

  /** Appending a refused push followed by its deactivation keeps the rule. */
  lemma GonePushKeepsRule(log: seq<Effect>, push: Effect, outcome: (SessionId, nat) -> SendOutcome)
    requires DeactivatesExactlyGone(log, outcome)
    requires push.Push? && Gone(outcome(push.sessionId, push.subscriptionId))
    ensures DeactivatesExactlyGone(log + [push, Deactivate(push.subscriptionId)], outcome)
  {
    var l := log + [push, Deactivate(push.subscriptionId)];
    forall k | 0 <= k < |l| && l[k].Deactivate?
      ensures 0 < k && l[k - 1].Push? && l[k - 1].subscriptionId == l[k].subscriptionId
    {
      if k < |log| {
        assert l[k] == log[k] && l[k - 1] == log[k - 1];
      }
    }
  }

  lemma AttemptKeepsRule(session: RunningSession, step: nat, sub: Subscription, outcome: (SessionId, nat) -> SendOutcome, t: Tally)
    requires DeactivatesExactlyGone(t.log, outcome)
    ensures DeactivatesExactlyGone(Attempt(session, step, sub, outcome, t).log, outcome)
  {
    if sub.id !in t.gone {
      var push := Push(session.id, sub.id, step, PayloadFor(session, step));
      if Gone(outcome(session.id, sub.id)) {
        GonePushKeepsRule(t.log, push, outcome);
      } else {
        QuietEffectKeepsRule(t.log, push, outcome);
      }
    }
  }

  lemma {:induction false} BroadcastKeepsRule(session: RunningSession, step: nat, subs: seq<Subscription>, outcome: (SessionId, nat) -> SendOutcome, t: Tally)
    requires DeactivatesExactlyGone(t.log, outcome)
    ensures DeactivatesExactlyGone(Broadcast(session, step, subs, outcome, t).log, outcome)
    decreases |subs|
  {
    if |subs| > 0 {
      BroadcastKeepsRule(session, step, subs[..|subs| - 1], outcome, t);
      AttemptKeepsRule(session, step, subs[|subs| - 1], outcome, Broadcast(session, step, subs[..|subs| - 1], outcome, t));
    }
  }

  lemma VisitKeepsRule(session: RunningSession, subs: seq<Subscription>, outcome: (SessionId, nat) -> SendOutcome, now: int, t: Tally)
    requires DeactivatesExactlyGone(t.log, outcome)
    ensures DeactivatesExactlyGone(Visit(session, subs, outcome, now, t).log, outcome)
  {
    if DueStep(session, now).Some? {
      var step := DueStep(session, now).value;
      BroadcastKeepsRule(session, step, subs, outcome, t.(delivered := false));
      var after := Broadcast(session, step, subs, outcome, t.(delivered := false));
      if after.delivered {
        QuietEffectKeepsRule(after.log, MarkNotified(session.id, step), outcome);
      }
    }
  }

  lemma {:induction false} VisitAllKeepsRule(sessions: seq<RunningSession>, subs: seq<Subscription>, outcome: (SessionId, nat) -> SendOutcome, now: int)
    ensures DeactivatesExactlyGone(VisitAll(sessions, subs, outcome, now).log, outcome)
    decreases |sessions|
  {
    if |sessions| > 0 {
      VisitAllKeepsRule(sessions[..|sessions| - 1], subs, outcome, now);
      VisitKeepsRule(sessions[|sessions| - 1], subs, outcome, now, VisitAll(sessions[..|sessions| - 1], subs, outcome, now));
    }
  }

  /** A dispatch deactivates a subscription exactly when a push to it was
      answered 404 or 410, right after that push. */
  lemma DispatchDeactivatesExactlyGone(sessions: seq<RunningSession>, subs: seq<Subscription>, outcome: (SessionId, nat) -> SendOutcome, now: int)
    ensures DeactivatesExactlyGone(Dispatch(sessions, subs, outcome, now).1, outcome)
  {
    if |subs| > 0 && |sessions| > 0 {
      VisitAllKeepsRule(sessions, subs, outcome, now);
    }
  }

  /** Sending one session's message appends only pushes of that message and
      deactivations, and reports a delivery exactly when one of the appended
      pushes was delivered. */
  lemma {:induction false} BroadcastShape(session: RunningSession, step: nat, subs: seq<Subscription>, outcome: (SessionId, nat) -> SendOutcome, t: Tally)
    ensures var after := Broadcast(session, step, subs, outcome, t);
      && |t.log| <= |after.log| && after.log[..|t.log|] == t.log
      && (forall k :: |t.log| <= k < |after.log| ==>
            || after.log[k].Deactivate?
            || (&& after.log[k].Push? && after.log[k].sessionId == session.id
                && after.log[k].step == step && after.log[k].payload == PayloadFor(session, step)))
      && (after.delivered <==>
            (|| t.delivered
             || exists k :: |t.log| <= k < |after.log| && after.log[k].Push? && outcome(session.id, after.log[k].subscriptionId) == Delivered))
    decreases |subs|
  {
    if |subs| > 0 {
      var before := Broadcast(session, step, subs[..|subs| - 1], outcome, t);
      BroadcastShape(session, step, subs[..|subs| - 1], outcome, t);
      var sub := subs[|subs| - 1];
      var after := Attempt(session, step, sub, outcome, before);
      assert after.log[..|before.log|] == before.log;
      assert after.log[..|t.log|] == before.log[..|t.log|];
      assert forall k :: |t.log| <= k < |before.log| ==> after.log[k] == before.log[k];
      if sub.id !in before.gone && outcome(session.id, sub.id) == Delivered {
        assert after.log[|before.log|].Push? && after.log[|before.log|].subscriptionId == sub.id;
      }
    }
  }

  /** A due session gets its message at the current step only, and its step is
      recorded (as the last effect of its visit) exactly when at least one of
      its sends was delivered. */
  lemma VisitShape(session: RunningSession, subs: seq<Subscription>, outcome: (SessionId, nat) -> SendOutcome, now: int, t: Tally)
    requires DueStep(session, now).Some?
    ensures var step := DueStep(session, now).value;
      var r := Visit(session, subs, outcome, now, t);
      var delivered := exists k :: |t.log| <= k < |r.log| && r.log[k].Push? && outcome(session.id, r.log[k].subscriptionId) == Delivered;
      && |t.log| <= |r.log| && r.log[..|t.log|] == t.log
      && (forall k :: |t.log| <= k < |r.log| && r.log[k].Push? ==>
            r.log[k].sessionId == session.id && r.log[k].step == step && r.log[k].payload == PayloadFor(session, step))
      && (delivered <==> |t.log| < |r.log| && r.log[|r.log| - 1] == MarkNotified(session.id, step))
      && (forall k :: |t.log| <= k < |r.log| - 1 ==> !r.log[k].MarkNotified?)
  {
    var step := DueStep(session, now).value;
    var start := t.(delivered := false);
    var after := Broadcast(session, step, subs, outcome, start);
    BroadcastShape(session, step, subs, outcome, start);
    if after.delivered {
      var r := after.log + [MarkNotified(session.id, step)];
      assert r[..|t.log|] == after.log[..|t.log|];
      assert forall k :: |t.log| <= k < |after.log| ==> r[k] == after.log[k];
    } else if |t.log| < |after.log| {
      assert !after.log[|after.log| - 1].MarkNotified?;
    }
  }

  /** With no subscriptions the visits would do nothing at all, so the early
      return loses nothing. */
  lemma {:induction false} NoSubscriptionsNoEffects(sessions: seq<RunningSession>, outcome: (SessionId, nat) -> SendOutcome, now: int)
    ensures VisitAll(sessions, [], outcome, now) == Initial
    decreases |sessions|
  {
    if |sessions| > 0 {
      NoSubscriptionsNoEffects(sessions[..|sessions| - 1], outcome, now);
    }
  }

  /** A session 31 minutes past its planned end whose step 1 was notified gets
      exactly one push, for step 2, and step 2 is recorded. */
  lemma LatestStepOnlyExample(plannedEndAt: int, outcome: (SessionId, nat) -> SendOutcome)
    requires outcome(1, 7) == Delivered
    ensures var session := RunningSession(1, Some(Focus), Some(plannedEndAt), Some(1));
      var sub := Subscription(7, "https://example.com/push/endpoint");
      Dispatch([session], [sub], outcome, plannedEndAt + 31 * 60) ==
        (DispatchResult(1, 1, 0), [Push(1, 7, 2, PayloadFor(session, 2)), MarkNotified(1, 2)])
  {
    var session := RunningSession(1, Some(Focus), Some(plannedEndAt), Some(1));
    var sub := Subscription(7, "https://example.com/push/endpoint");
    var now := plannedEndAt + 31 * 60;
    assert NotificationStep(plannedEndAt, now) == 2;
    assert DueStep(session, now) == Some(2);
    assert [session][..0] == [];
    assert [sub][..0] == [];
    var b := Broadcast(session, 2, [sub], outcome, Initial);
    assert b == Attempt(session, 2, sub, outcome, Broadcast(session, 2, [], outcome, Initial));
    assert Attempt(session, 2, sub, outcome, Initial).log == [] + [Push(1, 7, 2, PayloadFor(session, 2))];
    assert b == Tally(1, 0, {}, true, [Push(1, 7, 2, PayloadFor(session, 2))]);
    assert Initial.(delivered := false) == Initial;
    assert Visit(session, [sub], outcome, now, Initial) ==
      Tally(1, 0, {}, false, [Push(1, 7, 2, PayloadFor(session, 2))] + [MarkNotified(1, 2)]);
    assert VisitAll([session], [sub], outcome, now) == Visit(session, [sub], outcome, now, Initial);
    assert Dispatch([session], [sub], outcome, now) ==
      (DispatchResult(1, 1, 0), [Push(1, 7, 2, PayloadFor(session, 2))] + [MarkNotified(1, 2)]);
    assert [Push(1, 7, 2, PayloadFor(session, 2))] + [MarkNotified(1, 2)] == [Push(1, 7, 2, PayloadFor(session, 2)), MarkNotified(1, 2)];
  }

  /** A session 15 minutes past its planned end whose step 1 was notified gets nothing. */
  lemma AlreadyNotifiedExample(plannedEndAt: int, outcome: (SessionId, nat) -> SendOutcome)
    ensures Dispatch([RunningSession(1, Some(Focus), Some(plannedEndAt), Some(1))],
                     [Subscription(7, "https://example.com/push/endpoint")], outcome, plannedEndAt + 15 * 60) ==
      (DispatchResult(1, 0, 0), [])
  {
    var session := RunningSession(1, Some(Focus), Some(plannedEndAt), Some(1));
    assert NotificationStep(plannedEndAt, plannedEndAt + 15 * 60) == 1;
    assert DueStep(session, plannedEndAt + 15 * 60).None?;
    assert [session][..0] == [];
    assert VisitAll([session], [Subscription(7, "https://example.com/push/endpoint")], outcome, plannedEndAt + 15 * 60)
      == Visit(session, [Subscription(7, "https://example.com/push/endpoint")], outcome, plannedEndAt + 15 * 60, Initial);
  }

  /** A running session without a planned end gets nothing. */
  lemma NoPlannedEndExample(now: int, outcome: (SessionId, nat) -> SendOutcome)
    ensures Dispatch([RunningSession(1, Some(Focus), None, Some(-1))],
                     [Subscription(7, "https://example.com/push/endpoint")], outcome, now) ==
      (DispatchResult(1, 0, 0), [])
  {
    assert [RunningSession(1, Some(Focus), None, Some(-1))][..0] == [];
  }
}

=== FILE: retry.dfy ===
/** The retry-once-on-disconnect wrapper around a database operation
    (`_run_with_disconnect_retry`). The operation is modelled by what its first
    and, if made, second call would return or raise. */
module Retry {
  import opened Text

  /** What one call of the wrapped operation does: return a value or raise an
      exception whose text is `message`. */
  datatype Attempt<T> = Returned(value: T) | Raised(message: string)

  /** The wrapper's outcome, with the number of calls it made and the number of
      times it dropped the cached database client. */
  datatype Run<T> = Run(outcome: Attempt<T>, calls: nat, clientResets: nat)

  const DisconnectMarker := "Server disconnected"

  function RunWithDisconnectRetry<T>(first: Attempt<T>, second: Attempt<T>): (r: Run<T>)
    ensures 1 <= r.calls <= 2 && r.clientResets == r.calls - 1
    ensures r.calls == 2 <==> first.Raised? && Contains(first.message, DisconnectMarker)
    ensures r.calls == 1 ==> r.outcome == first
    ensures r.calls == 2 ==> r.outcome == second
  {
    match first
    case Returned(_) => Run(first, 1, 0)
    case Raised(message) =>
      if !Contains(message, DisconnectMarker) then Run(first, 1, 0)
      else Run(second, 2, 1)
  }

  /** A disconnect on the first call followed by success returns that success
      after exactly one client reset. */
  lemma RetriesDisconnectOnce<T>(message: string, v: T)
    requires Contains(message, DisconnectMarker)
    ensures RunWithDisconnectRetry(Raised(message), Returned(v)) == Run(Returned(v), 2, 1)
  {
  }

  /** Any other error propagates unchanged, without a second call. */
  lemma OtherErrorsPropagate<T>(message: string, second: Attempt<T>)
    requires !Contains(message, DisconnectMarker)
    ensures RunWithDisconnectRetry(Raised(message), second) == Run(Raised(message), 1, 0)
  {
  }

  /** The message the HTTP client raises on a dropped connection is retried. */
  lemma DisconnectMessageIsRetried()
    ensures RunWithDisconnectRetry(Raised("Server disconnected while reading"), Returned("ok"))
      == Run(Returned("ok"), 2, 1)
  {
    var message := "Server disconnected while reading";
    assert DisconnectMarker <= message;
    RetriesDisconnectOnce(message, "ok");
  }

  /** A permission error is not a disconnect: it propagates after one call. */
  lemma PermissionErrorPropagates<T>(second: Attempt<T>)
    ensures RunWithDisconnectRetry(Raised("permission denied"), second) == Run(Raised("permission denied"), 1, 0)
  {
    ShortNeverContains("permission denied", DisconnectMarker);
    OtherErrorsPropagate("permission denied", second);
  }

  /** A second disconnect is not retried again: it propagates. */
  lemma AtMostOneRetry<T>(message: string, again: string)
    requires Contains(message, DisconnectMarker)
    ensures RunWithDisconnectRetry<T>(Raised(message), Raised(again)) == Run(Raised(again), 2, 1)
  {
  }
}

=== FILE: tags.dfy ===
/** Tag normalisation shared by the pomodoro and memo-log services: trim each
    tag, drop blank ones and keep only the first occurrence of each. */
module Tags {
  import opened Text

  /** The input with every tag trimmed, position by position. */
  function Trimmed(tags: seq<string>): (r: seq<string>)
    ensures |r| == |tags|
    ensures forall i :: 0 <= i < |tags| ==> r[i] == Strip(tags[i])
  {
    seq(|tags|, i requires 0 <= i < |tags| => Strip(tags[i]))
  }

  /** Drops blank entries and repeated entries of an already trimmed list,
      defined on prefixes the way the service loops build it: the last entry
      is appended unless it is blank or already present. */
  function KeepFirst(xs: seq<string>): (r: seq<string>)
    ensures |r| <= |xs|
    decreases |xs|
  {
    if |xs| == 0 then []
    else
      var prev := KeepFirst(xs[..|xs| - 1]);
      var x := xs[|xs| - 1];
      if x == "" || x in prev then prev else prev + [x]
  }

  /** The normalised tag list: trimmed, non-blank, first occurrences only. */
  function Normalized(tags: seq<string>): (r: seq<string>)
    ensures |r| <= |tags|
  {
    KeepFirst(Trimmed(tags))
  }

  /** Appending one raw tag extends the normalised list exactly as one loop step does. */
  lemma NormalizedStep(tags: seq<string>, n: nat)
    requires n < |tags|
    ensures var prev := Normalized(tags[..n]);
            var tag := Strip(tags[n]);
            Normalized(tags[..n + 1]) == if tag == "" || tag in prev then prev else prev + [tag]
  {
    assert Trimmed(tags[..n + 1])[..n] == Trimmed(tags[..n]);
  }

  lemma {:induction false} KeepFirstSound(xs: seq<string>)
    ensures forall x :: x in KeepFirst(xs) ==> x != "" && x in xs
    decreases |xs|
  {
    if |xs| > 0 {
      KeepFirstSound(xs[..|xs| - 1]);
      assert forall x :: x in xs[..|xs| - 1] ==> x in xs;
    }
  }

  lemma {:induction false} KeepFirstDistinct(xs: seq<string>)
    ensures forall i, j :: 0 <= i < j < |KeepFirst(xs)| ==> KeepFirst(xs)[i] != KeepFirst(xs)[j]
    decreases |xs|
  {
    if |xs| > 0 {
      KeepFirstDistinct(xs[..|xs| - 1]);
    }
  }

  lemma {:induction false} KeepFirstComplete(xs: seq<string>)
    ensures forall x :: x in xs && x != "" ==> x in KeepFirst(xs)
    decreases |xs|
  {
    if |xs| > 0 {
      var n := |xs| - 1;
      KeepFirstComplete(xs[..n]);
      assert xs == xs[..n] + [xs[n]];
    }
  }

  lemma {:induction false} KeepFirstPrefix(xs: seq<string>, n: nat)
    requires n <= |xs|
    ensures KeepFirst(xs[..n]) <= KeepFirst(xs)
    decreases |xs| - n
  {
    if n < |xs| {
      KeepFirstPrefix(xs, n + 1);
      assert xs[..n + 1][..n] == xs[..n];
    } else {
      assert xs[..n] == xs;
    }
  }

  lemma {:induction false} KeepFirstFixesClean(xs: seq<string>)
    requires forall x :: x in xs ==> x != ""
    requires forall i, j :: 0 <= i < j < |xs| ==> xs[i] != xs[j]
    ensures KeepFirst(xs) == xs
    decreases |xs|
  {
    if |xs| > 0 {
      var n := |xs| - 1;
      assert forall x :: x in xs[..n] ==> x in xs;
      KeepFirstFixesClean(xs[..n]);
      assert xs[n] in xs;
      assert xs[n] !in xs[..n];
      assert xs[..n] + [xs[n]] == xs;
    }
  }

  /** Every output tag is non-blank, already trimmed, and the trimmed form of some input tag. */
  lemma NormalizedSound(tags: seq<string>)
    ensures forall t :: t in Normalized(tags) ==>
      t != "" && Strip(t) == t && exists i :: 0 <= i < |tags| && Strip(tags[i]) == t
  {
    KeepFirstSound(Trimmed(tags));
    forall t | t in Normalized(tags)
      ensures t != "" && Strip(t) == t && exists i :: 0 <= i < |tags| && Strip(tags[i]) == t
    {
      var i :| 0 <= i < |tags| && Trimmed(tags)[i] == t;
      StripIdempotent(tags[i]);
    }
  }

  /** No tag occurs twice in the output. */
  lemma NormalizedDistinct(tags: seq<string>)
    ensures forall i, j :: 0 <= i < j < |Normalized(tags)| ==> Normalized(tags)[i] != Normalized(tags)[j]
  {
    KeepFirstDistinct(Trimmed(tags));
  }

  /** Every non-blank trimmed input tag appears in the output. */
  lemma NormalizedComplete(tags: seq<string>)
    ensures forall i :: 0 <= i < |tags| && Strip(tags[i]) != "" ==> Strip(tags[i]) in Normalized(tags)
  {
    KeepFirstComplete(Trimmed(tags));
    forall i | 0 <= i < |tags| && Strip(tags[i]) != "" ensures Strip(tags[i]) in Normalized(tags) {
      assert Trimmed(tags)[i] in Trimmed(tags);
    }
  }

  /** Normalising a prefix of the input gives a prefix of the output: tags are
      emitted in the order of their first occurrence and never reordered later. */
  lemma NormalizedPrefix(tags: seq<string>, n: nat)
    requires n <= |tags|
    ensures Normalized(tags[..n]) <= Normalized(tags)
  {
    KeepFirstPrefix(Trimmed(tags), n);
    assert Trimmed(tags)[..n] == Trimmed(tags[..n]);
  }

  lemma KeepFirstOrder(xs: seq<string>, p: nat, q: nat)
    requires p < q < |xs|
    requires xs[p] != "" && xs[q] != ""
    requires forall k :: 0 <= k < q ==> xs[k] != xs[q]
    ensures exists i, j :: 0 <= i < j < |KeepFirst(xs)| && KeepFirst(xs)[i] == xs[p] && KeepFirst(xs)[j] == xs[q]
  {
    var r := KeepFirst(xs);
    var head := KeepFirst(xs[..q]);
    KeepFirstPrefix(xs, q);
    KeepFirstComplete(xs[..q]);
    assert xs[p] in xs[..q];
    KeepFirstSound(xs[..q]);
    assert xs[q] !in xs[..q];
    KeepFirstComplete(xs);
    assert xs[q] in xs;
    var i :| 0 <= i < |head| && head[i] == xs[p];
    var j :| 0 <= j < |r| && r[j] == xs[q];
    assert r[..|head|] == head;
    assert j >= |head|;
  }

  /** First-occurrence order: if tag y first occurs at position q and tag x
      occurs at an earlier position p, x comes before y in the output. */
  lemma FirstOccurrenceOrder(tags: seq<string>, p: nat, q: nat)
    requires p < q < |tags|
    requires Strip(tags[p]) != "" && Strip(tags[q]) != ""
    requires forall k :: 0 <= k < q ==> Strip(tags[k]) != Strip(tags[q])
    ensures exists i, j ::
      && 0 <= i < j < |Normalized(tags)|
      && Normalized(tags)[i] == Strip(tags[p])
      && Normalized(tags)[j] == Strip(tags[q])
  {
    var xs := Trimmed(tags);
    assert xs[p] == Strip(tags[p]) && xs[q] == Strip(tags[q]);
    assert forall k :: 0 <= k < q ==> xs[k] != xs[q];
    KeepFirstOrder(xs, p, q);
    assert Normalized(tags) == KeepFirst(xs);
  }

  /** Normalising twice is normalising once. */
  lemma NormalizedIdempotent(tags: seq<string>)
    ensures Normalized(Normalized(tags)) == Normalized(tags)
  {
    var r := Normalized(tags);
    NormalizedSound(tags);
    NormalizedDistinct(tags);
    assert Trimmed(r) == r;
    KeepFirstFixesClean(r);
  }

  /** The tag loop of both services: each tag trimmed, blank and repeated
      tags skipped, the rest kept in input order. */
  method NormalizeTags(tags: seq<string>) returns (unique: seq<string>)
    ensures unique == Normalized(tags)
  {
    unique := [];
    var seen: set<string> := {};
    for i := 0 to |tags|
      invariant unique == Normalized(tags[..i])
      invariant forall t :: t in seen <==> t in unique
    {
      var tag := Strip(tags[i]);
      NormalizedStep(tags, i);
      if tag != "" && tag !in seen {
        unique := unique + [tag];
        seen := seen + {tag};
      }
    }
    assert tags[..|tags|] == tags;
  }
}

=== FILE: text.dfy ===
/** The string operations of Python the backend relies on: `str.strip()`,
    `sub in s`, `s.split(sep)` and `str(n)` for a non-negative integer. */
module Text {

  /** Exactly the code points for which Python's `str.isspace()` is true. */
  predicate IsSpace(c: char) {
    || ('\t' <= c <= '\r')
    || ('\U{1C}' <= c <= ' ')
    || c == '\U{85}' || c == '\U{A0}' || c == '\U{1680}'
    || ('\U{2000}' <= c <= '\U{200A}')
    || c == '\U{2028}' || c == '\U{2029}' || c == '\U{202F}' || c == '\U{205F}' || c == '\U{3000}'
  }

  /** Drops leading whitespace; what is left is a suffix of `s`, and
      everything dropped is whitespace. */
  function TrimLeft(s: string): (r: string)
    ensures |r| <= |s| && r == s[|s| - |r|..]
    ensures r == [] || !IsSpace(r[0])
    ensures forall k :: 0 <= k < |s| - |r| ==> IsSpace(s[k])
  {
    if |s| > 0 && IsSpace(s[0]) then TrimLeft(s[1..]) else s
  }

  /** Drops trailing whitespace; what is left is a prefix of `s`, and
      everything dropped is whitespace. */
  function TrimRight(s: string): (r: string)
    ensures |r| <= |s| && r == s[..|r|]
    ensures r == [] || !IsSpace(r[|r| - 1])
    ensures forall k :: |r| <= k < |s| ==> IsSpace(s[k])
  {
    if |s| > 0 && IsSpace(s[|s| - 1]) then TrimRight(s[..|s| - 1]) else s
  }

  /** Python's `s.strip()`: the middle part `s[i..j]` of `s`, with only
      whitespace before `i` and after `j`, and no whitespace at its ends. */
  function Strip(s: string): (r: string)
    ensures r == [] || (!IsSpace(r[0]) && !IsSpace(r[|r| - 1]))
    ensures exists i, j :: StrippedAt(s, i, j) && r == s[i..j]
  {
    var left := TrimLeft(s);
    var r := TrimRight(left);
    StripWitness(s, left, r);
    r
  }

  /** The whitespace `TrimLeft` and then `TrimRight` drop sits at the two ends of `s`. */
  lemma StripWitness(s: string, left: string, r: string)
    requires |left| <= |s| && left == s[|s| - |left|..]
    requires forall k :: 0 <= k < |s| - |left| ==> IsSpace(s[k])
    requires |r| <= |left| && r == left[..|r|]
    requires forall k :: |r| <= k < |left| ==> IsSpace(left[k])
    ensures StrippedAt(s, |s| - |left|, |s| - |left| + |r|)
    ensures r == s[|s| - |left|..|s| - |left| + |r|]
  {
    var i := |s| - |left|;
    forall k | i + |r| <= k < |s|
      ensures IsSpace(s[k])
    {
      assert s[k] == left[k - i];
    }
  }

  /** `s[..i]` and `s[j..]` are all whitespace. */
  predicate StrippedAt(s: string, i: int, j: int) {
    && 0 <= i <= j <= |s|
    && (forall k :: 0 <= k < i ==> IsSpace(s[k]))
    && (forall k :: j <= k < |s| ==> IsSpace(s[k]))
  }

  /** Stripping only removes characters. */
  lemma StripKeepsCharacters(s: string, c: char)
    requires c in Strip(s)
    ensures c in s
  {
    var l := TrimLeft(s);
    assert c in l;
  }

  lemma {:induction false} TrimLeftKeeps(s: string)
    requires s == [] || !IsSpace(s[0])
    ensures TrimLeft(s) == s
  {
  }

  lemma {:induction false} TrimRightKeeps(s: string)
    requires s == [] || !IsSpace(s[|s| - 1])
    ensures TrimRight(s) == s
  {
  }

  /** A string that starts and ends with a non-space character is its own strip. */
  lemma {:induction false} StripKeeps(s: string)
    requires s == [] || (!IsSpace(s[0]) && !IsSpace(s[|s| - 1]))
    ensures Strip(s) == s
  {
    TrimLeftKeeps(s);
    TrimRightKeeps(s);
  }

  /** Stripping twice is stripping once. */
  lemma {:induction false} StripIdempotent(s: string)
    ensures Strip(Strip(s)) == Strip(s)
  {
    StripKeeps(Strip(s));
  }

  /** Python's `sub in s` for strings. */
  predicate Contains(s: string, sub: string)
    ensures sub == "" ==> Contains(s, sub)
    decreases |s|
  {
    sub <= s || (|s| > 0 && Contains(s[1..], sub))
  }

  /** `sub` occurs in `s` starting at position `i`. */
  predicate OccursAt(s: string, sub: string, i: int) {
    0 <= i && i + |sub| <= |s| && s[i..i + |sub|] == sub
  }

  /** `sub in s` holds exactly when `sub` occurs at some position of `s`. */
  lemma {:induction false} ContainsOccurs(s: string, sub: string)
    ensures Contains(s, sub) <==> exists i :: OccursAt(s, sub, i)
    decreases |s|
  {
    if sub <= s {
      assert OccursAt(s, sub, 0);
    } else if |s| > 0 {
      ContainsOccurs(s[1..], sub);
      if exists i :: OccursAt(s, sub, i) {
        var i :| OccursAt(s, sub, i);
        if i != 0 {
          assert s[1..][i - 1..i - 1 + |sub|] == s[i..i + |sub|];
          assert OccursAt(s[1..], sub, i - 1);
        }
      }
      if Contains(s[1..], sub) {
        var i :| OccursAt(s[1..], sub, i);
        assert s[1..][i..i + |sub|] == s[i + 1..i + 1 + |sub|];
        assert OccursAt(s, sub, i + 1);
      }
    }
  }

  lemma {:induction false} ContainsExtendsLeft(prefix: string, s: string, sub: string)
    requires Contains(s, sub)
    ensures Contains(prefix + s, sub)
    decreases |prefix|
  {
    if |prefix| > 0 {
      ContainsExtendsLeft(prefix[1..], s, sub);
      assert (prefix + s)[1..] == prefix[1..] + s;
    } else {
      assert prefix + s == s;
    }
  }

  lemma {:induction false} ContainsInMiddle(prefix: string, sub: string, suffix: string)
    ensures Contains(prefix + sub + suffix, sub)
  {
    assert sub <= sub + suffix;
    ContainsExtendsLeft(prefix, sub + suffix, sub);
    assert prefix + sub + suffix == prefix + (sub + suffix);
  }

  /** A string shorter than the searched text cannot contain it. */
  lemma {:induction false} ShortNeverContains(s: string, sub: string)
    requires |s| < |sub|
    ensures !Contains(s, sub)
    decreases |s|
  {
    if |s| > 0 {
      ShortNeverContains(s[1..], sub);
    }
  }

  /** Python's `s.split(sep)`: the pieces between separators, at least one. */
  function Split(s: string, sep: char): (pieces: seq<string>)
    ensures |pieces| >= 1
    decreases |s|
  {
    if |s| == 0 then [""]
    else
      var rest := Split(s[1..], sep);
      if s[0] == sep then [""] + rest else [[s[0]] + rest[0]] + rest[1..]
  }

  /** No piece of a split holds the separator. */
  lemma {:induction false} SplitPiecesAreFree(s: string, sep: char)
    ensures forall k :: 0 <= k < |Split(s, sep)| ==> sep !in Split(s, sep)[k]
    decreases |s|
  {
    if |s| > 0 {
      SplitPiecesAreFree(s[1..], sep);
      var rest := Split(s[1..], sep);
      if s[0] != sep {
        assert sep !in [s[0]] + rest[0];
      }
    }
  }

  /** Python's `sep.join(pieces)`. */
  function Join(pieces: seq<string>, sep: char): string
    requires |pieces| >= 1
    decreases |pieces|
  {
    if |pieces| == 1 then pieces[0] else pieces[0] + [sep] + Join(pieces[1..], sep)
  }

  /** Joining the pieces of a split gives back the original string. */
  lemma {:induction false} JoinSplit(s: string, sep: char)
    ensures Join(Split(s, sep), sep) == s
    decreases |s|
  {
    if |s| > 0 {
      var rest := Split(s[1..], sep);
      JoinSplit(s[1..], sep);
      if s[0] == sep {
        assert ([""] + rest)[1..] == rest;
      } else {
        var pieces := [[s[0]] + rest[0]] + rest[1..];
        if |rest| == 1 {
          assert pieces == [[s[0]] + rest[0]];
        } else {
          assert pieces[1..] == rest[1..];
          assert Join(rest, sep) == rest[0] + [sep] + Join(rest[1..], sep);
        }
      }
    }
  }

  /** A string without the separator splits into itself alone. */
  lemma {:induction false} SplitWithoutSeparator(s: string, sep: char)
    requires sep !in s
    ensures Split(s, sep) == [s]
    decreases |s|
  {
    if |s| > 0 {
      assert sep !in s[1..] by {
        assert forall c :: c in s[1..] ==> c in s;
      }
      SplitWithoutSeparator(s[1..], sep);
      assert [s[0]] + s[1..] == s;
    }
  }

  /** Splitting a non-empty string, in terms of the split of its tail. */
  lemma SplitStep(s: string, t: string, sep: char, rest: seq<string>)
    requires |s| > 0 && s[1..] == t && Split(t, sep) == rest
    ensures s[0] == sep ==> Split(s, sep) == [""] + rest
    ensures s[0] != sep ==> Split(s, sep) == [[s[0]] + rest[0]] + rest[1..]
  {
  }

  lemma ConsOntoFirst(x: seq<string>, y: seq<string>, c: char)
    requires |x| >= 1
    ensures [[c] + x[0]] + x[1..] + y == [[c] + (x + y)[0]] + (x + y)[1..]
  {
    assert (x + y)[0] == x[0];
    assert (x + y)[1..] == x[1..] + y;
  }

  /** Splitting at a separator splits the two sides independently. */
  lemma {:induction false} SplitAt(s: string, a: string, b: string, sep: char)
    requires s == a + [sep] + b
    ensures Split(s, sep) == Split(a, sep) + Split(b, sep)
    decreases |a|
  {
    if |a| == 0 {
      assert s[0] == sep && s[1..] == b;
      SplitStep(s, b, sep, Split(b, sep));
    } else {
      assert s[0] == a[0] && s[1..] == a[1..] + [sep] + b;
      SplitAt(s[1..], a[1..], b, sep);
      var ra, rb := Split(a[1..], sep), Split(b, sep);
      SplitStep(s, s[1..], sep, ra + rb);
      SplitStep(a, a[1..], sep, ra);
      if a[0] != sep {
        ConsOntoFirst(ra, rb, a[0]);
      }
    }
  }

  lemma SplitAround(a: string, b: string, sep: char)
    ensures Split(a + [sep] + b, sep) == Split(a, sep) + Split(b, sep)
  {
    SplitAt(a + [sep] + b, a, b, sep);
  }

  function DigitChar(d: nat): (c: char)
    requires d < 10
  {
    "0123456789"[d]
  }

  function DigitValue(c: char): int {
    c as int - '0' as int
  }

  predicate IsDigit(c: char) { '0' <= c <= '9' }

  /** Python's `str(n)` for `n >= 0`: decimal digits without leading zeros. */
  function DecimalString(n: nat): (s: string)
    ensures |s| >= 1
    ensures forall k :: 0 <= k < |s| ==> IsDigit(s[k])
    ensures |s| > 1 ==> s[0] != '0'
    decreases n
  {
    if n < 10 then [DigitChar(n)] else DecimalString(n / 10) + [DigitChar(n % 10)]
  }

  /** The number a string of decimal digits denotes. */
  function DecimalValue(s: string): int
    decreases |s|
  {
    if |s| == 0 then 0 else DecimalValue(s[..|s| - 1]) * 10 + DigitValue(s[|s| - 1])
  }

  /** Reading back the rendering of `n` gives `n`. */
  lemma {:induction false} DecimalRoundTrip(n: nat)
    ensures DecimalValue(DecimalString(n)) == n
    decreases n
  {
    var s := DecimalString(n);
    if n < 10 {
      assert s[..0] == [];
    } else {
      DecimalRoundTrip(n / 10);
      assert s[..|s| - 1] == DecimalString(n / 10);
    }
  }

  /** Different numbers render differently. */
  lemma DecimalInjective(m: nat, n: nat)
    requires m != n
    ensures DecimalString(m) != DecimalString(n)
  {
    DecimalRoundTrip(m);
    DecimalRoundTrip(n);
  }
}
